=== FILE: README.md ===
# CRM server core in Dafny

A model of the business logic of a small JSON-backed CRM server (`server.js`).
The whole document is an immutable value `Db` with seven collections of
records. Each mutating endpoint is a pure function from the document, the
session payload and the request body to a `Response`, which holds the new
document and either the reply's record or an error. The modules are:

- `Json`: JSON values and records, plus the JavaScript operators the server
  applies to them. These are property read, object literal and spread,
  truthiness, `===`, `||` and `??`.
- `Seqs`: `Array.prototype.filter`, `join` and `split` on sequences, with
  their algebra (fusion, extensionality, subsequence, split after join).
- `Visibility`: the visibility rule `canSee`, and `listFilter`, the list
  query behind every list endpoint, the KPI endpoint and the CSV export. It
  covers case-insensitive search, the stage, owner and team parameters, and
  the month prefix.
- `Store`: the pipeline `STAGES`, the document, and the `audit` log.
- `Entities`: create and update for companies, contacts and activities;
  create, update and move for deals; user creation with its duplicate-email
  check.
- `Kpi`: the aggregation of GET /api/kpi.
- `Csv`: `toCSV` and the export endpoint with its per-entity column whitelist,
  and what a non-admin session can export from the audit log.
- `Api`: the modelled mutating requests as one datatype, and the document
  invariants every such request preserves when it runs alone. Every deal has
  a pipeline stage, emails are unique, and audit entries carry no ownership
  fields. It also models two user creations that overlap at the password
  hash, which break email uniqueness (see Findings).

Ids and timestamps (`nanoid`, `new Date()`) come in as a `Stamp` parameter.
The `JSON.stringify` encodings used by text search and by CSV cells come in
as the function parameters `text` and `encode`. Password hashing comes in as
the function parameter `hash`.

## Model

| member | source | states |
|---|---|---|
| Visibility.CanSeeExactly | server.js:109-115 | A record is visible exactly when a session is present and either it is an admin, or the record's `owner_id` is `===` the session's `uid`, or both teams are truthy and equal; with no session nothing is visible |
| Visibility.CanSeeReadsOnly | server.js:109-115 | Visibility depends only on the session's `role`, `uid` and `team` and the record's `owner_id` and `team`; `zone` never grants or denies access |
| Visibility.StaffSees | server.js:111-114 | For a non-admin session with a string uid and a non-empty team, a record is visible iff its `owner_id` is that uid or its `team` is that team |
| Visibility.LowerChar | server.js:119-120 | `toLowerCase` on one character never yields an upper-case ASCII letter, maps each ASCII upper-case letter to the letter at the same place of the lower-case alphabet, and keeps every other character (non-ASCII letters included, see Left out) |
| Visibility.Lower | server.js:119-120 | A lower-cased string has the input's length and no upper-case ASCII letter, and a string without upper-case letters is returned unchanged |
| Visibility.LowerIdempotent | server.js:119-120 | Lower-casing an already lower-cased term changes nothing, so lower-casing both sides of the search is stable |
| Visibility.ContainsAt | server.js:120 | `includes` holds exactly when the term occurs at some offset of the text |
| Visibility.Prefix | server.js:124 | `slice(0, 7)` has length min(len, 7) and is a prefix of its input |
| Visibility.MonthKey | server.js:124 | Reading the month throws exactly when `created_at` is truthy and not a string; a falsy `created_at` reads as `""`; a string reads as its prefix of length min(len, 7) |
| Visibility.FieldStepsMeaning | server.js:117-123 | The visibility step followed by the conditional search, stage, owner and team steps equals one filter by visibility and all field tests that are switched on |
| Visibility.MonthFilterThrows | server.js:124 | The month step throws exactly when some record surviving the earlier steps has an unreadable month |
| Visibility.MonthFilterKeeps | server.js:124 | When it does not throw, the month step after a filter is one filter by both tests |
| Visibility.ListFilterThrows | server.js:116-126 | `listFilter` fails iff a query object is present and some record is visible, passes the field tests, has a month parameter set and has an unreadable `created_at`; the failure is always a TypeError |
| Visibility.ListFilterMeaning | server.js:116-126 | A successful listing equals the reference definition: the collection filtered by `Listed`, in collection order |
| Visibility.ListedMatches | server.js:117-124 | Every listed record is visible and matches each set `stage`, `owner`, `team` parameter, and with `month` set has a string `created_at` whose 7-character prefix is the month |
| Visibility.ListFilterSound | server.js:116-126 | A successful listing is an order-preserving subsequence of the collection that holds every listed record and only listed records |
| Visibility.EmptyQueryIsVisibility | server.js:117-118 | With no query object, or with every parameter empty, the listing is exactly the visible records |
| Visibility.SearchIgnoresCase | server.js:119-120 | Two search terms with the same lower-case form give the same listing |
| Visibility.NoMonthNoThrow | server.js:116-126 | Without a month parameter the listing never fails |
| Visibility.ListFilter | server.js:116-126 | With no query object the listing is the visible records; without a month it never fails; and any failure is a TypeError |
| Visibility.ListActivities | server.js:254-259 | The activity listing fails iff `listFilter` fails; otherwise it is an order-preserving subsequence of the `listFilter` result that holds every copy of each listed activity whose `deal_id` is the given one and no copy of any other, and the whole listing when no `deal_id` is given |
| Visibility.ByDeal | server.js:256-257 | The `deal_id` step keeps, in order, every copy of each activity of that deal and no copy of any other, and keeps everything when `deal_id` is empty |
| Seqs.FilterMultiset | server.js:257 | `Array.prototype.filter` keeps every copy of an element that passes the test and no copy of one that fails it |
| Store.AuditEntry | server.js:127-128 | An audit entry has the given id, time, action, entity, entity id and detail, `by` is the session's uid when truthy and `null` otherwise, and it has no other keys |
| Store.Audit | server.js:127-130 | Auditing prepends exactly one entry, which has no ownership fields, and leaves every collection unchanged |
| Csv.StaffSeesNoAudit | server.js:109-128 | A non-admin session with a uid lists no audit entries, because entries carry neither `owner_id` nor `team` |
| Entities.FindIndex | server.js:195 | `findIndex` returns the first index whose `id` is the string id, and returns none iff no record has that id |
| Entities.Owned | server.js:190 | Stamping ownership copies `uid` to `owner_id`, and copies `team` and `zone` from the session; every other key is unchanged and no other key is added |
| Entities.Merge | server.js:197 | An update merge takes every body key, keeps every other key of the previous record, and sets `updated_at` to the server time |
| Entities.Prepend | server.js:191 | A created record goes to the front of its collection, one audit entry is prepended, and no other collection changes |
| Entities.Replace | server.js:197-198 | An updated record replaces index i of its collection, the audit entry for the given action, entity, the record's id and detail is prepended, and no other collection changes |
| Entities.UpdatePlain | server.js:194-200 | The shared update fails with not-found iff no record has the id, leaving the document unchanged; otherwise the first match is replaced by its merge with the body and audited as `update` of the entity with an empty detail |
| Entities.StampedThenBody | server.js:190 | In a new company or contact every body key wins; only absent keys get the server id, the server time and the session's ownership; no other key is added |
| Entities.CreateCompany | server.js:189-193 | Company creation always succeeds, prepends the record, lets the body override every stamp, ownership included, adds no key beyond the body's and the stamps, and audits `create company` with `{ name }` |
| Entities.UpdateCompany | server.js:194-200 | Company update fails with not-found iff the id is unknown, leaving the document unchanged; otherwise the first company with the id is replaced by its merge with the body and audited as `update company` with `{}` |
| Entities.CreateContact | server.js:207-211 | Contact creation prepends the record; the body overrides every stamp, a body without `id` or `created_at` gets the fresh id and the server time, no other key is added, and the audit is `create contact` with `{ name: full_name }` |
| Entities.UpdateContact | server.js:212-218 | Contact update fails with not-found iff the id is unknown, leaving the document unchanged; otherwise the first contact with the id is replaced by its merge with the body and audited as `update contact` with `{}` |
| Entities.DealDefaults | server.js:226-228 | A new deal starts in stage `new` with the session's ownership |
| Entities.DealDefaultsLiterals | server.js:227 | The deal defaults hold the fresh id, title `''`, value `0` and company_id `null` |
| Entities.DealRecord | server.js:226-231 | The stored deal's stage is the body's stage when it is in `STAGES` and `new` otherwise; `created_at` is always the server time; other body keys win over the defaults |
| Entities.DealRecordDefaulted | server.js:226-229 | A stored deal whose body leaves out `id`, `title`, `value` or `company_id` has the fresh id, `''`, `0` or `null` there |
| Entities.DealRecordKeys | server.js:226-231 | A stored deal has no key but the body's, the defaults', the ownership stamps and `created_at` |
| Entities.CreateDeal | server.js:225-234 | Deal creation prepends a deal whose stage is always in `STAGES` (the body's if valid, else `new`) and whose `created_at` is the server time even if the body gives one; keys the body leaves out get the fresh id, title `''`, value `0` and company_id `null`, and no other key is added; the audit is `create deal` with `{ title, stage }`; if every existing deal was staged, every deal still is |
| Entities.UpdateDeal | server.js:235-242 | An unknown id is not-found with the document unchanged; otherwise only that deal is replaced, an invalid stage keeps the previous stage, every other body key is merged, `updated_at` is the server time, and the audit is `update deal` with `{}` |
| Entities.MoveDeal | server.js:243-251 | A move succeeds iff the id is known and the stage is in `STAGES`; an unknown id is not-found, a known id with a bad stage is bad-stage, and both leave the document unchanged; a valid move changes only `stage` and `updated_at` of that one deal and is audited as `move deal` with `{ stage }` |
| Entities.ActivityRecord | server.js:261-265 | A new activity's `owner_id`, `team` and `zone` come from the session and its `created_at` is the server time, whatever the body says; other body keys win over the defaults; no key is added beyond the body's, the defaults', the stamps and `created_at` |
| Entities.ActivityRecordDefaulted | server.js:261-262 | A stored activity whose body leaves out `id`, `type`, `due_at` or `done` has the fresh id, `'task'`, `null` or `false` there |
| Entities.CreateActivity | server.js:260-268 | Activity creation grows the collection by one with the new record at index 0 and the old records after it; the session decides ownership, keys the body leaves out get the fresh id, type `task`, due_at `null` and done `false`, no other key is added, and the audit is `create activity` with `{ type }` |
| Entities.UpdateActivity | server.js:269-275 | Activity update fails with not-found iff the id is unknown, leaving the document unchanged; otherwise the first activity with the id is replaced by its merge with the body and audited as `update activity` with `{}` |
| Entities.DefaultKeepsNull | server.js:173 | A destructuring default replaces only `undefined`: an explicit `null` role or password is kept, unlike `??`, which replaces both |
| Entities.CreateUser | server.js:172-182 | User creation fails with email-exists iff some user's email is `===` the body's email, leaving the document unchanged; otherwise it appends one user with the fresh id, the body's email and name, role, team and zone defaulting to `staff`, `HQ` and `BKK`, the hashed password (default `123456`) and the server time, audits `{ email, role }`, and replies with the profile but not the hash |
| Entities.AddUser | server.js:175-181 | The push after the hash appends exactly one user with the fresh id, email, name, defaulted role, team and zone, hashed defaulted password and creation time, audits `{ email, role }`, and checks no email |
| Entities.UserFields | server.js:173-181 | The reply of user creation carries the new id, the body's email and name, and the role, team and zone defaulted to `staff`, `HQ` and `BKK`, and never a password hash |
| Entities.UserRow | server.js:175-179 | The stored user has the reply's profile fields, the hash of the defaulted password and `created_at` set to the server time |
| Entities.UserDetail | server.js:180 | The audit detail of user creation holds exactly the body's email and the defaulted role |
| Kpi.Aggregate | server.js:298-303 | `total` is the count of listed deals, `wonCount` is at most `total` and equals the count of won deals, `byStage` has six entries in `STAGES` order, and `estSum`/`wonSum` are the amount sums over all deals and over won deals |
| Kpi.AmountExamples | server.js:301-302 | The value coercion counts numbers and digit strings at face value, `true` as 1, and `null`, `undefined`, `""`, non-numeric strings and objects as 0 |
| Kpi.SumAmountsAppend | server.js:301-302 | The value reduce over two concatenated deal lists is the sum of the two reduces |
| Kpi.KpiOf | server.js:296-305 | The KPI fails iff its `listFilter` fails; otherwise every figure (total, won count, both sums and the stage breakdown) is that of the deals the session may list |
| Kpi.Counts | server.js:303 | The breakdown has one entry per stage, in order, each holding that stage's count |
| Kpi.OccursOnce | server.js:303 | A deal whose stage is among distinct stage names is counted under exactly one of them |
| Kpi.NoOccurrence | server.js:303 | A deal whose stage is not among the stage names is counted under none of them |
| Kpi.CountsSumToLength | server.js:303 | Over distinct stage names that cover every deal's stage, the breakdown sums to the number of deals |
| Kpi.ByStageSumsToTotal | server.js:298-303 | When every deal's stage is in `STAGES`, `byStage` sums to `total` |
| Kpi.KpiByStageSumsToTotal | server.js:296-305 | On a document whose deals are all staged, every successful KPI reply has `byStage` summing to `total` |
| Kpi.SumSplits | server.js:301-302 | The amount sum over a filter plus the sum over its complement is the whole sum |
| Kpi.EstSumSplitsOnWon | server.js:299-302 | `estSum` is `wonSum` plus the sum over the deals that are not won |
| Kpi.WorkedExample | server.js:298-303 | A won deal of 100 and a new deal of 50 give total 2, one won, sums 150 and 100, and one deal under each of `new` and `won` |
| Csv.CsvLines | server.js:131-135 | Read back line by line, the CSV is the comma-joined header, then one line per row in order, or a single empty line when there are no rows |
| Csv.CsvReadsOnlyColumns | server.js:131-135 | Rows that agree on the listed columns render to the same CSV, so fields outside the whitelist never appear |
| Csv.NoSecretColumns | server.js:309-316 | Exactly the five collection names have a column list, and no list names `password_hash` |
| Csv.Export | server.js:307-322 | An entity outside the map is rejected as unknown before anything is read; a known one fails iff its listing fails and otherwise renders the session's listing under that entity's columns |
| Csv.ExportIgnoresExtraField | server.js:309-318 | Injecting a field outside an entity's whitelist into its rows leaves the export unchanged |
| Csv.ExportAsWritten | server.js:316-317 | The lookup as written lets the names inherited from `Object.prototype` through to a TypeError; every other name behaves as the corrected export |
| Csv.InheritedNameSlipsThrough | server.js:316 | `toString` is not exportable, yet the handler as written fails with a TypeError where the corrected one answers unknown entity |
| Api.HandleTouchesOnlyTarget | server.js:189-275 | A rejected request leaves the document unchanged; an accepted one changes only its own collection and prepends one audit entry with no ownership fields |
| Api.HandleLeavesOthers | server.js:189-275 | A request never changes a collection other than its own |
| Api.AuditKeepsShape | server.js:127-128 | Prepending an entry without ownership fields keeps the whole log free of them |
| Store.PrependKeepsStaged | server.js:232 | After a deal with a valid stage is put at the front of the deals, every deal is staged exactly when every deal was staged before |
| Api.CreateDealKeepsStaged | server.js:225-234 | Deal creation keeps every deal in a pipeline stage |
| Api.UpdateDealKeepsStaged | server.js:235-242 | Deal update keeps every deal in a pipeline stage |
| Api.MoveDealKeepsStaged | server.js:243-251 | A move keeps every deal in a pipeline stage |
| Api.HandleKeepsStaged | server.js:189-275 | No request can leave a deal outside `STAGES` |
| Api.AppendKeepsEmailsUnique | server.js:174-180 | Appending a user whose email no one has keeps emails unique |
| Api.CreateUserKeepsEmailsUnique | server.js:172-182 | User creation keeps emails unique |
| Api.HandleKeepsEmailsUnique | server.js:172-275 | No request can create two users with the same email |
| Api.HandlePreservesInvariant | server.js:127-275 | Every request preserves all three document invariants |
| Api.OverlappingCreatesDuplicate | server.js:172-180 | Two user creations with the same fresh email that both pass the check at line 174 before either push end with two users sharing that email |
| Api.OverlappingCreatesKeepEmailsUnique | server.js:172-180 | When the push re-checks the email, overlapping creations keep emails unique |
| Api.EmptyInvariant | server.js:127-275 | The empty document satisfies the invariants |
| Api.CreatorSeesActivity | server.js:260-266 | A session with a string uid always sees the activity it creates |
| Api.CreatorSeesCompany | server.js:189-191 | A session with a string uid sees the company it creates unless the body overrides `owner_id` |
| Api.CompanyBodyCanHide | server.js:190 | A body naming another owner and an empty team hides the new company from its staff creator |

## Left out

- Authentication: JWT signing and checking, bcrypt, the `auth` and `admin` middleware, login, `/api/me` and password change. The session is a given record, and `hash` is a parameter.
- Express routing, HTTP status codes, CORS, static files and the SPA fallback. Errors are the `Error` datatype: not found, bad stage, email exists, unknown entity, and TypeError for a thrown exception.
- `loadDB`/`saveDB`, the seed data and the file system. The document is an in-memory value.
- Uploads and attachments: multer storage, file-name sanitising and URL building are file I/O. The `attachments` collection is carried but never written.
- The users listing endpoint. It is a plain projection with no logic beyond the field list.
- The list GET endpoints for companies, contacts and deals. Each is exactly `ListFilter` on its collection.
- `nanoid` and `new Date()`. They are the `Stamp` parameter.
- `JSON.stringify`. It is the `text` (search) and `encode` (CSV cell) parameters. `CsvLines` assumes that `encode` never emits a raw newline, as `JSON.stringify` does not.
- Kpi.Amount: models `Number(v) || 0` on integers only: numbers, booleans and strings of plain decimal digits. Floating-point values, signs, whitespace, exponents and hex strings are not modelled, and such strings count as 0.
- JSON arrays and fractional numbers do not occur in the value type.
- Query parameters given as arrays (`?stage=a&stage=b`) are not modelled. Each parameter is one string, with `""` meaning absent.
- Visibility.LowerChar: maps ASCII upper-case letters only and keeps every other character, whereas `toLowerCase` also maps non-ASCII letters such as `Ä`. Unicode case mapping is not modelled.
- Visibility.Lower: lower-cases ASCII letters only, character by character with `LowerChar`, for the same reason.
- Visibility.Prefix: slices characters, not UTF-16 code units.
- Two objects are never `===`. Values read from different requests or documents are different references.
- Audit visibility: audit entries (server.js:128) carry neither `owner_id` nor `team`, so a non-admin session with a `uid` never sees them (`Csv.StaffSeesNoAudit`). A session without a `uid` would match every entry, since `undefined === undefined`.
- Entities.CreateUser: modelled as running alone. The source awaits the password hash (server.js:177) between the duplicate check (line 174) and the push (line 180), and other requests can run during that wait. `Api.OverlappingCreatesDuplicate` models that interleaving.
- Api.CreateUserKeepsEmailsUnique: holds for a user creation that runs alone; overlapping creations can break it (see Findings).
- Api.HandleKeepsEmailsUnique: requests are modelled one at a time; two POST /api/users requests overlapping at the `await` on line 177 are not covered.
- Api.HandlePreservesInvariant: its email-uniqueness part assumes requests run one at a time, for the same reason.
- POST /api/me/password and POST /api/files also change the document. They are not part of `Request`, because they depend on bcrypt and on uploads.

## Findings

| source | as written | input that shows it | evidently intended | confidence | as-written member | corrected member |
|---|---|---|---|---|---|---|
| server.js:174-180 | the duplicate-email check runs before `await bcrypt.hash` and the push runs after it, so a second creation can pass the check while the first is hashing | two POST /api/users with the same new email, the second arriving while the first awaits the hash | emails stay unique: the check and the push see the same document | not executed | Api.OverlappingCreatesAsWritten, Api.OverlappingCreatesDuplicate | Api.OverlappingCreates, Api.OverlappingCreatesKeepEmailsUnique |
| server.js:316 | `if (!map[ent])` looks the entity up through the prototype chain, so inherited names such as `toString` or `__proto__` pass the unknown-entity check; `db[ent]` is then not an array and `listFilter` throws | GET /api/export/toString.csv | only the five own keys of the column map are exportable, and any other name is answered as unknown entity | not executed | Csv.ExportAsWritten, Csv.InheritedNameSlipsThrough | Csv.Export |

=== FILE: api.dfy ===
/** The mutating endpoints as one request type, and the document invariants
    every one of them preserves. */
module Api {
  import opened Wrappers
  import opened Json
  import opened Errors
  import opened Store
  import opened Visibility
  import opened Entities

  /** A mutating request, already authenticated; `id` is the `:id` route parameter. */
  datatype Request =
    | CreateCompanyReq(body: Record)
    | UpdateCompanyReq(id: string, body: Record)
    | CreateContactReq(body: Record)
    | UpdateContactReq(id: string, body: Record)
    | CreateDealReq(body: Record)
    | UpdateDealReq(id: string, body: Record)
    | MoveDealReq(id: string, body: Record)
    | CreateActivityReq(body: Record)
    | UpdateActivityReq(id: string, body: Record)
    | CreateUserReq(body: Record, hash: Json -> string)

  /** Routes a request to its handler; each request runs alone. */
  function Handle(db: Db, session: Record, req: Request, stamp: Stamp): Response
  {
    match req
    case CreateCompanyReq(body) => CreateCompany(db, session, body, stamp)
    case UpdateCompanyReq(id, body) => UpdateCompany(db, session, id, body, stamp)
    case CreateContactReq(body) => CreateContact(db, session, body, stamp)
    case UpdateContactReq(id, body) => UpdateContact(db, session, id, body, stamp)
    case CreateDealReq(body) => CreateDeal(db, session, body, stamp)
    case UpdateDealReq(id, body) => UpdateDeal(db, session, id, body, stamp)
    case MoveDealReq(id, body) => MoveDeal(db, session, id, body, stamp)
    case CreateActivityReq(body) => CreateActivity(db, session, body, stamp)
    case UpdateActivityReq(id, body) => UpdateActivity(db, session, id, body, stamp)
    case CreateUserReq(body, hash) => CreateUser(db, session, body, hash, stamp)
  }

  /** No two users share an email under `===`. */
  predicate EmailsUnique(users: seq<Record>)
  {
    forall i, j :: 0 <= i < j < |users| ==> !StrictEq(Get(users[i], "email"), Get(users[j], "email"))
  }

  /** The document invariants: every deal is staged, emails are unique and
      audit entries carry no ownership fields. */
  predicate Invariant(db: Db)
  {
    AllStaged(db.deals) && EmailsUnique(db.users) && AuditShaped(db.audit)
  }

  /** The empty document satisfies the invariants. */
  lemma EmptyInvariant()
    ensures Invariant(Empty)
  {
  }

  /** The collection a request writes to. */
  function Target(req: Request): Coll
  {
    match req
    case CreateCompanyReq(_) => Companies
    case UpdateCompanyReq(_, _) => Companies
    case CreateContactReq(_) => Contacts
    case UpdateContactReq(_, _) => Contacts
    case CreateDealReq(_) => Deals
    case UpdateDealReq(_, _) => Deals
    case MoveDealReq(_, _) => Deals
    case CreateActivityReq(_) => Activities
    case UpdateActivityReq(_, _) => Activities
    case CreateUserReq(_, _) => Users
  }

  /** A rejected request leaves the document as it was; an accepted one
      changes only its own collection and adds one audit entry. */
  lemma HandleTouchesOnlyTarget(db: Db, session: Record, req: Request, stamp: Stamp)
    ensures var r := Handle(db, session, req, stamp);
      && (r.result.Err? ==> r.db == db)
      && (r.result.Ok? ==> OnlyChanged(db, r.db, Target(req)))
  {
  }

  /** A request leaves every collection but its own as it was. */
  lemma HandleLeavesOthers(db: Db, session: Record, req: Request, stamp: Stamp, c: Coll)
    requires c != Target(req)
    ensures Rows(Handle(db, session, req, stamp).db, c) == Rows(db, c)
  {
    HandleTouchesOnlyTarget(db, session, req, stamp);
  }

  /** A new audit entry keeps the log free of ownership fields. */
  lemma AuditKeepsShape(prev: seq<Record>, next: seq<Record>)
    requires AuditShaped(prev)
    requires |next| == |prev| + 1 && next[1..] == prev
    requires "owner_id" !in next[0] && "team" !in next[0]
    ensures AuditShaped(next)
  {
    forall i | 0 <= i < |next|
      ensures "owner_id" !in next[i] && "team" !in next[i]
    {
      if i > 0 {
        assert next[i] == prev[i - 1];
      }
    }
  }

  /** Replacing one deal by a staged deal keeps every deal staged. */
  lemma ReplaceKeepsStaged(deals: seq<Record>, i: nat, deal: Record)
    requires AllStaged(deals) && i < |deals| && IsStage(Get(deal, "stage"))
    ensures AllStaged(deals[i := deal])
  {
  }

  /** A created deal is staged: an invalid stage becomes `new`. */
  lemma CreateDealKeepsStaged(db: Db, session: Record, body: Record, stamp: Stamp)
    requires AllStaged(db.deals)
    ensures AllStaged(CreateDeal(db, session, body, stamp).db.deals)
  {
  }

  /** An update keeps the deal staged: an invalid stage falls back to the previous one. */
  lemma UpdateDealKeepsStaged(db: Db, session: Record, id: string, body: Record, stamp: Stamp)
    requires AllStaged(db.deals)
    ensures AllStaged(UpdateDeal(db, session, id, body, stamp).db.deals)
  {
    var r := UpdateDeal(db, session, id, body, stamp);
    if r.result.Ok? {
      var i := FindIndex(db.deals, id).value;
      ReplaceKeepsStaged(db.deals, i, r.result.value);
    }
  }

  /** A move succeeds only onto a pipeline stage. */
  lemma MoveDealKeepsStaged(db: Db, session: Record, id: string, body: Record, stamp: Stamp)
    requires AllStaged(db.deals)
    ensures AllStaged(MoveDeal(db, session, id, body, stamp).db.deals)
  {
    var r := MoveDeal(db, session, id, body, stamp);
    if r.result.Ok? {
      var i := FindIndex(db.deals, id).value;
      ReplaceKeepsStaged(db.deals, i, r.result.value);
    }
  }

  /** Every deal keeps a pipeline stage under every request. */
  lemma HandleKeepsStaged(db: Db, session: Record, req: Request, stamp: Stamp)
    requires AllStaged(db.deals)
    ensures AllStaged(Handle(db, session, req, stamp).db.deals)
  {
    if Target(req) != Deals {
      HandleLeavesOthers(db, session, req, stamp, Deals);
    } else if req.CreateDealReq? {
      CreateDealKeepsStaged(db, session, req.body, stamp);
    } else if req.UpdateDealReq? {
      UpdateDealKeepsStaged(db, session, req.id, req.body, stamp);
    } else {
      MoveDealKeepsStaged(db, session, req.id, req.body, stamp);
    }
  }

  /** Appending a user whose email is not taken keeps emails unique. */
  lemma AppendKeepsEmailsUnique(users: seq<Record>, row: Record)
    requires EmailsUnique(users) && !EmailTaken(users, Get(row, "email"))
    ensures EmailsUnique(users + [row])
  {
    var all := users + [row];
    forall i, j | 0 <= i < j < |all|
      ensures !StrictEq(Get(all[i], "email"), Get(all[j], "email"))
    {
      assert all[i] == users[i];
      if j < |users| {
        assert all[j] == users[j];
      }
    }
  }

  /** User creation rejects a taken email, so emails stay unique. */
  lemma CreateUserKeepsEmailsUnique(db: Db, session: Record, body: Record, hash: Json -> string, stamp: Stamp)
    requires EmailsUnique(db.users)
    ensures EmailsUnique(CreateUser(db, session, body, hash, stamp).db.users)
  {
    var r := CreateUser(db, session, body, hash, stamp);
    if r.result.Ok? {
      var users := r.db.users;
      var n := |db.users|;
      assert users == users[..n] + [users[n]];
      AppendKeepsEmailsUnique(db.users, users[n]);
    }
  }

  /** Emails stay unique under every request. */
  lemma HandleKeepsEmailsUnique(db: Db, session: Record, req: Request, stamp: Stamp)
    requires EmailsUnique(db.users)
    ensures EmailsUnique(Handle(db, session, req, stamp).db.users)
  {
    if Target(req) != Users {
      HandleLeavesOthers(db, session, req, stamp, Users);
    } else {
      CreateUserKeepsEmailsUnique(db, session, req.body, req.hash, stamp);
    }
  }

  /** Every request preserves the document invariants. */
  lemma HandlePreservesInvariant(db: Db, session: Record, req: Request, stamp: Stamp)
    requires Invariant(db)
    ensures Invariant(Handle(db, session, req, stamp).db)
  {
    var r := Handle(db, session, req, stamp);
    HandleTouchesOnlyTarget(db, session, req, stamp);
    HandleKeepsStaged(db, session, req, stamp);
    HandleKeepsEmailsUnique(db, session, req, stamp);
    if r.result.Ok? {
      AuditKeepsShape(db.audit, r.db.audit);
    }
  }

  /** The creator of an activity always sees it: its `owner_id` is copied
      from the session's string user id, whatever the body says. */
  lemma CreatorSeesActivity(db: Db, session: Record, body: Record, stamp: Stamp, uid: string)
    requires Get(session, "uid") == StrField(uid)
    ensures CanSee(Some(session), CreateActivity(db, session, body, stamp).result.value)
  {
    var a := CreateActivity(db, session, body, stamp).result.value;
    assert IsOwnerKey("owner_id");
    assert Get(a, "owner_id") == Get(session, "uid");
  }

  /** The creator of a company sees it unless the body overrides `owner_id`. */
  lemma CreatorSeesCompany(db: Db, session: Record, body: Record, stamp: Stamp, uid: string)
    requires Get(session, "uid") == StrField(uid) && "owner_id" !in body
    ensures CanSee(Some(session), CreateCompany(db, session, body, stamp).result.value)
  {
    var c := CreateCompany(db, session, body, stamp).result.value;
    assert IsOwnerKey("owner_id");
    assert Get(c, "owner_id") == Get(session, "uid");
  }

  /** A body that names another owner and an empty team hides a new
      company from its staff creator. */
  lemma CompanyBodyCanHide(db: Db, session: Record, body: Record, stamp: Stamp, uid: string, other: string)
    requires !IsAdmin(session) && Get(session, "uid") == StrField(uid)
    requires Get(body, "owner_id") == StrField(other) && other != uid && Get(body, "team") == StrField("")
    ensures !CanSee(Some(session), CreateCompany(db, session, body, stamp).result.value)
  {
    var c := CreateCompany(db, session, body, stamp).result.value;
    assert Get(c, "owner_id") == StrField(other);
    assert Get(c, "team") == StrField("");
  }

  // ---------------------------------------------------------------------
  // Two user creations that overlap at the password hash
  // ---------------------------------------------------------------------

  /** Two POST /api/users requests as the source runs them when both reach
      the duplicate check before either `await bcrypt.hash` finishes: each
      checks the document it saw, and each push happens later without a
      second check. */
  function OverlappingCreatesAsWritten(db: Db, s1: Record, b1: Record, h1: Json -> string, t1: Stamp,
                                       s2: Record, b2: Record, h2: Json -> string, t2: Stamp): Db
  {
    var ok1 := !EmailTaken(db.users, Get(b1, "email"));
    var ok2 := !EmailTaken(db.users, Get(b2, "email"));
    var db1 := if ok1 then AddUser(db, s1, b1, h1, t1).db else db;
    if ok2 then AddUser(db1, s2, b2, h2, t2).db else db1
  }

  /** Two overlapping creations with the same fresh email both pass the
      check and both push: the document ends with a duplicate email. */
  lemma OverlappingCreatesDuplicate(db: Db, s1: Record, b1: Record, h1: Json -> string, t1: Stamp,
                                    s2: Record, b2: Record, h2: Json -> string, t2: Stamp, email: string)
    requires Get(b1, "email") == StrField(email) && Get(b2, "email") == StrField(email)
    requires !EmailTaken(db.users, StrField(email))
    ensures !EmailsUnique(OverlappingCreatesAsWritten(db, s1, b1, h1, t1, s2, b2, h2, t2).users)
  {
    var n := |db.users|;
    var db1 := AddUser(db, s1, b1, h1, t1).db;
    var db2 := AddUser(db1, s2, b2, h2, t2).db;
    assert db2 == OverlappingCreatesAsWritten(db, s1, b1, h1, t1, s2, b2, h2, t2);
    assert db2.users[n] == db2.users[..n + 1][n] == db1.users[n];
    assert StrictEq(Get(db2.users[n], "email"), Get(db2.users[n + 1], "email"));
  }

  /** The same two requests when the push re-checks the email against the
      document it commits to, as a creation that runs alone does. */
  function OverlappingCreates(db: Db, s1: Record, b1: Record, h1: Json -> string, t1: Stamp,
                              s2: Record, b2: Record, h2: Json -> string, t2: Stamp): Db
  {
    var ok1 := !EmailTaken(db.users, Get(b1, "email"));
    var ok2 := !EmailTaken(db.users, Get(b2, "email"));
    var db1 := if ok1 then CreateUser(db, s1, b1, h1, t1).db else db;
    if ok2 then CreateUser(db1, s2, b2, h2, t2).db else db1
  }

  /** With the check repeated at the push, overlapping creations keep emails unique. */
  lemma OverlappingCreatesKeepEmailsUnique(db: Db, s1: Record, b1: Record, h1: Json -> string, t1: Stamp,
                                           s2: Record, b2: Record, h2: Json -> string, t2: Stamp)
    requires EmailsUnique(db.users)
    ensures EmailsUnique(OverlappingCreates(db, s1, b1, h1, t1, s2, b2, h2, t2).users)
  {
    var ok1 := !EmailTaken(db.users, Get(b1, "email"));
    var db1 := if ok1 then CreateUser(db, s1, b1, h1, t1).db else db;
    CreateUserKeepsEmailsUnique(db, s1, b1, h1, t1);
    CreateUserKeepsEmailsUnique(db1, s2, b2, h2, t2);
  }
}

=== FILE: csv.dfy ===
/** CSV export: `toCSV` and GET /api/export/:entity.csv with its per-entity
    column whitelist. */
module Csv {
  import opened Wrappers
  import opened Json
  import opened Seqs
  import opened Errors
  import opened Store
  import opened Visibility

  /** `r[c] ?? ''`: the value a cell encodes. */
  function Cell(r: Record, c: string): Json
  {
    Coalesce(Get(r, c), Str(""))
  }

  /** The encoded cells of one row, one per column. */
  function Cells(r: Record, cols: seq<string>, encode: Json -> string): (cs: seq<string>)
    ensures |cs| == |cols|
    ensures forall j :: 0 <= j < |cols| ==> cs[j] == encode(Cell(r, cols[j]))
  {
    seq(|cols|, j requires 0 <= j < |cols| => encode(Cell(r, cols[j])))
  }

  /** `cols.map(c => JSON.stringify(r[c] ?? '')).join(',')`. */
  function RowLine(r: Record, cols: seq<string>, encode: Json -> string): string
  {
    Join(Cells(r, cols, encode), ',')
  }

  /** One line per row, in row order. */
  function RowLines(rows: seq<Record>, cols: seq<string>, encode: Json -> string): (ls: seq<string>)
    ensures |ls| == |rows|
    ensures forall i :: 0 <= i < |rows| ==> ls[i] == RowLine(rows[i], cols, encode)
  {
    seq(|rows|, i requires 0 <= i < |rows| => RowLine(rows[i], cols, encode))
  }

  /** `toCSV(rows, cols)`: the header, a newline, then the row lines joined by newlines. */
  function ToCsv(rows: seq<Record>, cols: seq<string>, encode: Json -> string): string
  {
    Join(cols, ',') + "\n" + Join(RowLines(rows, cols, encode), '\n')
  }

  /** A join of parts free of `c`, with a separator other than `c`, is free of `c`. */
  lemma {:induction false} JoinAvoids(parts: seq<string>, sep: char, c: char)
    requires sep != c
    requires forall i :: 0 <= i < |parts| ==> c !in parts[i]
    ensures c !in Join(parts, sep)
    decreases |parts|
  {
    if |parts| > 1 {
      JoinAvoids(parts[1..], sep, c);
    }
  }

  /** Read back line by line, the CSV is the header followed by one line per
      row in order (and one empty line when there are no rows), provided the
      cell encoder never emits a raw newline, as `JSON.stringify` does not. */
  lemma CsvLines(rows: seq<Record>, cols: seq<string>, encode: Json -> string)
    requires forall v :: '\n' !in encode(v)
    requires forall j :: 0 <= j < |cols| ==> '\n' !in cols[j]
    ensures Split(ToCsv(rows, cols, encode), '\n')
      == [Join(cols, ',')] + (if rows == [] then [""] else RowLines(rows, cols, encode))
  {
    var header := Join(cols, ',');
    var lines := RowLines(rows, cols, encode);
    JoinAvoids(cols, ',', '\n');
    forall i | 0 <= i < |lines|
      ensures '\n' !in lines[i]
    {
      JoinAvoids(Cells(rows[i], cols, encode), ',', '\n');
    }
    SplitFirst(header, Join(lines, '\n'), '\n');
    if rows == [] {
      assert Split("", '\n') == [""];
    } else {
      SplitJoin(lines, '\n');
    }
  }

  /** Fields outside the column list never reach the output: rows that agree
      on the listed columns render to the same CSV. */
  lemma CsvReadsOnlyColumns(rows1: seq<Record>, rows2: seq<Record>, cols: seq<string>, encode: Json -> string)
    requires |rows1| == |rows2|
    requires forall i, j :: 0 <= i < |rows1| && 0 <= j < |cols| ==> Get(rows1[i], cols[j]) == Get(rows2[i], cols[j])
    ensures ToCsv(rows1, cols, encode) == ToCsv(rows2, cols, encode)
  {
    forall i | 0 <= i < |rows1|
      ensures RowLine(rows1[i], cols, encode) == RowLine(rows2[i], cols, encode)
    {
      assert Cells(rows1[i], cols, encode) == Cells(rows2[i], cols, encode);
    }
    assert RowLines(rows1, cols, encode) == RowLines(rows2, cols, encode);
  }

  // ---------------------------------------------------------------------
  // Export
  // ---------------------------------------------------------------------

  /** The entity names the export map defines, with their columns. */
  function ExportColumns(ent: string): Option<seq<string>>
  {
    if ent == "deals" then Some(["id", "title", "stage", "value", "company_id", "owner_id", "team", "zone", "created_at"])
    else if ent == "companies" then Some(["id", "name", "phone", "address", "owner_id", "team", "zone", "created_at"])
    else if ent == "contacts" then Some(["id", "full_name", "email", "phone", "company_id", "owner_id", "team", "zone", "created_at"])
    else if ent == "activities" then Some(["id", "type", "note", "due_at", "done", "deal_id", "owner_id", "team", "zone", "created_at"])
    else if ent == "audit" then Some(["id", "at", "by", "action", "entity", "entity_id"])
    else None
  }

  /** The names of the five exportable collections. */
  const Exportable: set<string> := {"deals", "companies", "contacts", "activities", "audit"}

  /** No export column list names a password hash. */
  lemma NoSecretColumns(ent: string)
    ensures ExportColumns(ent).Some? <==> ent in Exportable
    ensures ExportColumns(ent).Some? ==> "password_hash" !in ExportColumns(ent).value
  {
  }

  /** `db[ent]` for an exportable name. */
  function ExportRows(db: Db, ent: string): seq<Record>
  {
    if ent == "deals" then db.deals
    else if ent == "companies" then db.companies
    else if ent == "contacts" then db.contacts
    else if ent == "activities" then db.activities
    else db.audit
  }

  /** GET /api/export/:entity.csv, with the entity looked up among the
      export map's own names: an unknown name is rejected before anything is
      read, a known one renders the session's listing of that collection. */
  function Export(db: Db, ent: string, user: Option<Record>, query: Option<Query>,
                  text: Record -> string, encode: Json -> string): (r: Result<string, Error>)
    ensures r == Err(UnknownEntity) <==> ent !in Exportable
    ensures ent in Exportable ==>
      (r.Err? <==> ListFilter(ExportRows(db, ent), user, query, text).Err?)
    ensures r.Ok? ==>
      r.value == ToCsv(ListFilter(ExportRows(db, ent), user, query, text).value, ExportColumns(ent).value, encode)
  {
    match ExportColumns(ent)
    case None => Err(UnknownEntity)
    case Some(cols) =>
      var rows :- ListFilter(ExportRows(db, ent), user, query, text);
      Ok(ToCsv(rows, cols, encode))
  }

  /** Injecting a field outside an entity's whitelist, such as a password
      hash, into any of the rows changes nothing in its export. */
  lemma ExportIgnoresExtraField(ent: string, rows: seq<Record>, injected: seq<Record>, k: string, v: Json,
                                encode: Json -> string)
    requires ent in Exportable && k !in ExportColumns(ent).value
    requires |injected| == |rows| && forall i :: 0 <= i < |rows| ==> injected[i] == rows[i][k := v]
    ensures ToCsv(injected, ExportColumns(ent).value, encode) == ToCsv(rows, ExportColumns(ent).value, encode)
  {
    var cols := ExportColumns(ent).value;
    forall i, j | 0 <= i < |rows| && 0 <= j < |cols|
      ensures Get(injected[i], cols[j]) == Get(rows[i], cols[j])
    {
      assert cols[j] != k;
    }
    CsvReadsOnlyColumns(injected, rows, cols, encode);
  }

  // ---------------------------------------------------------------------
  // The export lookup as written
  // ---------------------------------------------------------------------

  /** The properties every plain JavaScript object inherits from `Object.prototype`. */
  const InheritedNames: set<string> := {
    "constructor", "hasOwnProperty", "isPrototypeOf", "propertyIsEnumerable", "toString",
    "toLocaleString", "valueOf", "__proto__", "__defineGetter__", "__defineSetter__",
    "__lookupGetter__", "__lookupSetter__"}

  /** The export handler as the source writes it: `map[ent]` also finds the
      inherited names, whose values are truthy, so the unknown-entity check
      lets them through; `db[ent]` then yields a non-array and
      `listFilter`'s `arr.filter` throws a TypeError (HTTP 500). */
  function ExportAsWritten(db: Db, ent: string, user: Option<Record>, query: Option<Query>,
                           text: Record -> string, encode: Json -> string): (r: Result<string, Error>)
    ensures ent in InheritedNames ==> r == Err(TypeError)
    ensures ent !in InheritedNames ==> r == Export(db, ent, user, query, text, encode)
  {
    if ent in InheritedNames then Err(TypeError)
    else if ent in Exportable then Export(db, ent, user, query, text, encode)
    else Err(UnknownEntity)
  }

  /** GET /api/export/toString.csv is not an exportable collection, yet the
      handler as written answers with a TypeError instead of "unknown entity". */
  lemma InheritedNameSlipsThrough(db: Db, user: Option<Record>, query: Option<Query>,
                                  text: Record -> string, encode: Json -> string)
    ensures "toString" !in Exportable
    ensures ExportAsWritten(db, "toString", user, query, text, encode) == Err(TypeError)
    ensures Export(db, "toString", user, query, text, encode) == Err(UnknownEntity)
  {
  }

  /** A non-admin session with a user id exports no audit entry: visibility
      reads `owner_id` and `team`, and audit entries carry neither. Only
      admins, or a session without a uid, get entries out of the log. */
  lemma StaffSeesNoAudit(entries: seq<Record>, session: Record, query: Option<Query>, text: Record -> string)
    requires AuditShaped(entries)
    requires !IsAdmin(session) && Get(session, "uid").Some?
    ensures ListFilter(entries, Some(session), query, text) == Ok([])
  {
    ListFilterThrows(entries, Some(session), query, text);
    ListFilterMeaning(entries, Some(session), query, text);
    forall i | 0 <= i < |entries|
      ensures !Listed(Some(session), query, text, entries[i])
    {
      assert !CanSee(Some(session), entries[i]);
    }
    FilterNone(entries, x => Listed(Some(session), query, text, x));
  }
}

=== FILE: entities.dfy ===
/** The create, update and move handlers for companies, contacts, deals and
    activities, and user creation. Each handler is a function from the
    document, the session and the request to a `Response`. */
module Entities {
  import opened Wrappers
  import opened Json
  import opened Errors
  import opened Store

  // ---------------------------------------------------------------------
  // Shared pieces
  // ---------------------------------------------------------------------

  /** `rows.findIndex(x => x.id === id)`. */
  function FindIndex(rows: seq<Record>, id: string): (r: Option<nat>)
    ensures r.Some? ==> r.value < |rows| && Get(rows[r.value], "id") == StrField(id)
    ensures r.Some? ==> forall j :: 0 <= j < r.value ==> Get(rows[j], "id") != StrField(id)
    ensures r.None? <==> forall j :: 0 <= j < |rows| ==> Get(rows[j], "id") != StrField(id)
    decreases |rows|
  {
    if rows == [] then None
    else if Get(rows[0], "id") == StrField(id) then Some(0)
    else match FindIndex(rows[1..], id)
      case None => None
      case Some(k) => Some(k + 1)
  }

  /** The keys of the ownership stamps. */
  predicate IsOwnerKey(k: string)
  {
    k == "owner_id" || k == "team" || k == "zone"
  }

  /** The ownership stamps `owner_id`, `team` and `zone`, copied from the session. */
  function Owned(r: Record, session: Record): (r': Record)
    ensures forall k :: IsOwnerKey(k) ==> Get(r', k) == Get(session, OwnerKey(k))
    ensures forall k :: !IsOwnerKey(k) ==> Get(r', k) == Get(r, k)
    ensures forall k :: k in r' ==> k in r || IsOwnerKey(k)
  {
    Put(Put(Put(r, "owner_id", Get(session, "uid")), "team", Get(session, "team")), "zone", Get(session, "zone"))
  }

  /** The keys company and contact creation write besides the body's. */
  predicate StampKey(k: string)
  {
    k == "id" || k == "created_at" || IsOwnerKey(k)
  }

  /** The keys deal creation writes besides the body's. */
  predicate DealKey(k: string)
  {
    k == "id" || k == "title" || k == "stage" || k == "value" || k == "company_id" || k == "created_at" || IsOwnerKey(k)
  }

  /** The keys activity creation writes besides the body's. */
  predicate ActivityKey(k: string)
  {
    k == "id" || k == "type" || k == "due_at" || k == "done" || k == "created_at" || IsOwnerKey(k)
  }

  /** The session key each ownership stamp is copied from. */
  function OwnerKey(k: string): string
  {
    if k == "owner_id" then "uid" else k
  }

  /** The handler touched only collection `c` and prepended one audit entry,
      which carries no ownership fields. */
  predicate OnlyChanged(db: Db, db': Db, c: Coll)
  {
    && (forall c' :: c' != c ==> Rows(db', c') == Rows(db, c'))
    && |db'.audit| == |db.audit| + 1 && db'.audit[1..] == db.audit
    && "owner_id" !in db'.audit[0] && "team" !in db'.audit[0]
  }

  /** A new record goes to the front of its collection, then is audited. */
  function Prepend(db: Db, c: Coll, rec: Record, session: Record, entity: string, detail: Record,
                   stamp: Stamp): (r: Response)
    ensures r.result == Ok(rec)
    ensures Rows(r.db, c) == [rec] + Rows(db, c)
    ensures OnlyChanged(db, r.db, c)
    ensures r.db.audit[0] == AuditEntry(session, "create", entity, Get(rec, "id"), detail, stamp.auditId, stamp.auditAt)
  {
    var db1 := WithRows(db, c, [rec] + Rows(db, c));
    Response(Audit(db1, session, "create", entity, Get(rec, "id"), detail, stamp), Ok(rec))
  }

  /** Writes the updated record back at index `i`, then audits the action. */
  function Replace(db: Db, c: Coll, i: nat, rec: Record, session: Record, action: string, entity: string,
                   detail: Record, stamp: Stamp): (r: Response)
    requires i < |Rows(db, c)|
    ensures r.result == Ok(rec)
    ensures Rows(r.db, c) == Rows(db, c)[i := rec]
    ensures OnlyChanged(db, r.db, c)
    ensures r.db.audit[0] == AuditEntry(session, action, entity, Get(rec, "id"), detail, stamp.auditId, stamp.auditAt)
  {
    var db1 := WithRows(db, c, Rows(db, c)[i := rec]);
    Response(Audit(db1, session, action, entity, Get(rec, "id"), detail, stamp), Ok(rec))
  }

  /** `{ ...prev, ...body, updated_at: now }`. */
  function Merge(prev: Record, body: Record, now: string): (r: Record)
    ensures Get(r, "updated_at") == StrField(now)
    ensures forall k :: k != "updated_at" && k in body ==> Get(r, k) == Some(body[k])
    ensures forall k :: k != "updated_at" && k !in body ==> Get(r, k) == Get(prev, k)
  {
    Put(Spread(prev, body), "updated_at", StrField(now))
  }

  /** The update handler shared by companies, contacts and activities. */
  function UpdatePlain(db: Db, c: Coll, entity: string, session: Record, id: string, body: Record,
                       stamp: Stamp): (r: Response)
    ensures var rows := Rows(db, c);
      && (r.result.Err? <==> forall j :: 0 <= j < |rows| ==> Get(rows[j], "id") != StrField(id))
      && (r.result.Err? ==> r.result.error == NotFound && r.db == db)
      && (r.result.Ok? ==> var i := FindIndex(rows, id).value;
            && Rows(r.db, c) == rows[i := r.result.value]
            && r.result.value == Merge(rows[i], body, stamp.now)
            && OnlyChanged(db, r.db, c)
            && r.db.audit[0] == AuditEntry(session, "update", entity, Get(r.result.value, "id"), map[],
                                           stamp.auditId, stamp.auditAt))
  {
    var rows := Rows(db, c);
    match FindIndex(rows, id)
    case None => Response(db, Err(NotFound))
    case Some(i) =>
      var up := Merge(rows[i], body, stamp.now);
      Replace(db, c, i, up, session, "update", entity, map[], stamp)
  }

  // ---------------------------------------------------------------------
  // Companies and contacts: the body is spread last, over every stamp
  // ---------------------------------------------------------------------

  /** `{ id, created_at, owner_id, team, zone, ...req.body }`. */
  function StampedThenBody(session: Record, body: Record, stamp: Stamp): (r: Record)
    ensures forall k :: k in body ==> Get(r, k) == Some(body[k])
    ensures "id" !in body ==> Get(r, "id") == StrField(stamp.id)
    ensures "created_at" !in body ==> Get(r, "created_at") == StrField(stamp.now)
    ensures forall k :: IsOwnerKey(k) && k !in body ==> Get(r, k) == Get(session, OwnerKey(k))
    ensures forall k :: k in r ==> k in body || StampKey(k)
  {
    var base: Record := map["id" := Str(stamp.id), "created_at" := Str(stamp.now)];
    var owned := Owned(base, session);
    assert !IsOwnerKey("id") && !IsOwnerKey("created_at");
    assert Get(owned, "id") == StrField(stamp.id) && Get(owned, "created_at") == StrField(stamp.now);
    Spread(owned, body)
  }

  /** POST /api/companies. The body can override every stamp, the ownership ones included. */
  function CreateCompany(db: Db, session: Record, body: Record, stamp: Stamp): (r: Response)
    ensures r.result.Ok? && Rows(r.db, Companies) == [r.result.value] + db.companies
    ensures OnlyChanged(db, r.db, Companies)
    ensures forall k :: k in body ==> Get(r.result.value, k) == Some(body[k])
    ensures "id" !in body ==> Get(r.result.value, "id") == StrField(stamp.id)
    ensures "created_at" !in body ==> Get(r.result.value, "created_at") == StrField(stamp.now)
    ensures forall k :: IsOwnerKey(k) && k !in body ==>
      Get(r.result.value, k) == Get(session, OwnerKey(k))
    ensures r.db.audit[0] == AuditEntry(session, "create", "company", Get(r.result.value, "id"),
                                        Put(map[], "name", Get(r.result.value, "name")), stamp.auditId, stamp.auditAt)
    ensures forall k :: k in r.result.value ==> k in body || StampKey(k)
  {
    var c := StampedThenBody(session, body, stamp);
    Prepend(db, Companies, c, session, "company", Put(map[], "name", Get(c, "name")), stamp)
  }

  /** PUT /api/companies/:id. */
  function UpdateCompany(db: Db, session: Record, id: string, body: Record, stamp: Stamp): (r: Response)
    ensures r.result.Err? <==> forall j :: 0 <= j < |db.companies| ==> Get(db.companies[j], "id") != StrField(id)
    ensures r.result.Err? ==> r.result.error == NotFound && r.db == db
    ensures r.result.Ok? ==> OnlyChanged(db, r.db, Companies) && |r.db.companies| == |db.companies|
    ensures r.result.Ok? ==> var i := FindIndex(db.companies, id).value;
      && r.result.value == Merge(db.companies[i], body, stamp.now)
      && Rows(r.db, Companies) == db.companies[i := r.result.value]
      && r.db.audit[0] == AuditEntry(session, "update", "company", Get(r.result.value, "id"), map[], stamp.auditId, stamp.auditAt)
  {
    UpdatePlain(db, Companies, "company", session, id, body, stamp)
  }

  /** POST /api/contacts. */
  function CreateContact(db: Db, session: Record, body: Record, stamp: Stamp): (r: Response)
    ensures r.result.Ok? && Rows(r.db, Contacts) == [r.result.value] + db.contacts
    ensures OnlyChanged(db, r.db, Contacts)
    ensures forall k :: k in body ==> Get(r.result.value, k) == Some(body[k])
    ensures "id" !in body ==> Get(r.result.value, "id") == StrField(stamp.id)
    ensures "created_at" !in body ==> Get(r.result.value, "created_at") == StrField(stamp.now)
    ensures forall k :: IsOwnerKey(k) && k !in body ==>
      Get(r.result.value, k) == Get(session, OwnerKey(k))
    ensures r.db.audit[0] == AuditEntry(session, "create", "contact", Get(r.result.value, "id"),
                                        Put(map[], "name", Get(r.result.value, "full_name")), stamp.auditId, stamp.auditAt)
    ensures forall k :: k in r.result.value ==> k in body || StampKey(k)
  {
    var c := StampedThenBody(session, body, stamp);
    Prepend(db, Contacts, c, session, "contact", Put(map[], "name", Get(c, "full_name")), stamp)
  }

  /** PUT /api/contacts/:id. */
  function UpdateContact(db: Db, session: Record, id: string, body: Record, stamp: Stamp): (r: Response)
    ensures r.result.Err? <==> forall j :: 0 <= j < |db.contacts| ==> Get(db.contacts[j], "id") != StrField(id)
    ensures r.result.Err? ==> r.result.error == NotFound && r.db == db
    ensures r.result.Ok? ==> OnlyChanged(db, r.db, Contacts) && |r.db.contacts| == |db.contacts|
    ensures r.result.Ok? ==> var i := FindIndex(db.contacts, id).value;
      && r.result.value == Merge(db.contacts[i], body, stamp.now)
      && Rows(r.db, Contacts) == db.contacts[i := r.result.value]
      && r.db.audit[0] == AuditEntry(session, "update", "contact", Get(r.result.value, "id"), map[], stamp.auditId, stamp.auditAt)
  {
    UpdatePlain(db, Contacts, "contact", session, id, body, stamp)
  }

  // ---------------------------------------------------------------------
  // Deals
  // ---------------------------------------------------------------------

  /** A deal whose body leaves out `id`, `title`, `value` or `company_id` gets
      the fresh id, `''`, `0` or `null` for it. */
  predicate DealDefaulted(d: Record, body: Record, stamp: Stamp)
  {
    && ("id" !in body ==> Get(d, "id") == StrField(stamp.id))
    && ("title" !in body ==> Get(d, "title") == StrField(""))
    && ("value" !in body ==> Get(d, "value") == Some(Num(0)))
    && ("company_id" !in body ==> Get(d, "company_id") == Some(Null))
  }

  /** The body's keys override the defaults; the rest keep them. */
  lemma SpreadKeepsDealDefaulted(d: Record, body: Record, stamp: Stamp)
    requires DealDefaulted(d, map[], stamp)
    ensures DealDefaulted(Spread(d, body), body, stamp)
  {
  }

  /** Stamping `created_at` or resetting `stage` leaves the other defaults alone. */
  lemma PutKeepsDealDefaulted(d: Record, body: Record, stamp: Stamp, k: string, v: Option<Json>)
    requires DealDefaulted(d, body, stamp)
    requires k == "created_at" || k == "stage"
    ensures DealDefaulted(Put(d, k, v), body, stamp)
  {
  }

  /** `{ id, title: '', stage: 'new', value: 0, company_id: null, owner_id, team, zone }`. */
  function DealDefaults(session: Record, stamp: Stamp): (d: Record)
    ensures Get(d, "stage") == StrField("new")
    ensures forall k :: IsOwnerKey(k) ==> Get(d, k) == Get(session, OwnerKey(k))
  {
    Owned(DealLiterals(stamp), session)
  }

  /** `{ id, title: '', stage: 'new', value: 0, company_id: null }`. */
  function DealLiterals(stamp: Stamp): Record
  {
    map["id" := Str(stamp.id), "title" := Str(""), "stage" := Str("new"), "value" := Num(0), "company_id" := Null]
  }

  /** The defaults hold the fresh id, an empty title, a zero value and a null company. */
  lemma DealDefaultsLiterals(session: Record, stamp: Stamp)
    ensures DealDefaulted(DealDefaults(session, stamp), map[], stamp)
  {
    assert DealDefaulted(DealLiterals(stamp), map[], stamp);
  }

  /** POST /api/deals: the body is spread over the defaults, `created_at` is
      stamped after it, and a stage outside the pipeline becomes `new`. */
  function CreateDeal(db: Db, session: Record, body: Record, stamp: Stamp): (r: Response)
    ensures r.result.Ok? && Rows(r.db, Deals) == [r.result.value] + db.deals
    ensures OnlyChanged(db, r.db, Deals)
    ensures IsStage(Get(r.result.value, "stage"))
    ensures AllStaged(db.deals) ==> AllStaged(r.db.deals)
    ensures Get(r.result.value, "stage") == if IsStage(Get(body, "stage")) then Get(body, "stage") else StrField("new")
    ensures Get(r.result.value, "created_at") == StrField(stamp.now)
    ensures forall k :: k in body && k != "stage" && k != "created_at" ==> Get(r.result.value, k) == Some(body[k])
    ensures DealDefaulted(r.result.value, body, stamp)
    ensures forall k :: IsOwnerKey(k) && k !in body ==>
      Get(r.result.value, k) == Get(session, OwnerKey(k))
    ensures r.db.audit[0] == AuditEntry(session, "create", "deal", Get(r.result.value, "id"),
      Put(Put(map[], "title", Get(r.result.value, "title")), "stage", Get(r.result.value, "stage")), stamp.auditId, stamp.auditAt)
    ensures forall k :: k in r.result.value ==> k in body || DealKey(k)
  {
    var d := DealRecord(session, body, stamp);
    PrependKeepsStaged(d, db.deals);
    DealRecordDefaulted(session, body, stamp);
    DealRecordKeys(session, body, stamp);
    Prepend(db, Deals, d, session, "deal", Put(Put(map[], "title", Get(d, "title")), "stage", Get(d, "stage")), stamp)
  }

  /** The record POST /api/deals stores. */
  function DealRecord(session: Record, body: Record, stamp: Stamp): (d: Record)
    ensures Get(d, "stage") == if IsStage(Get(body, "stage")) then Get(body, "stage") else StrField("new")
    ensures Get(d, "created_at") == StrField(stamp.now)
    ensures forall k :: k in body && k != "stage" && k != "created_at" ==> Get(d, k) == Some(body[k])
    ensures forall k :: IsOwnerKey(k) && k !in body ==> Get(d, k) == Get(session, OwnerKey(k))
  {
    var defaults := DealDefaults(session, stamp);
    assert Get(defaults, "stage") == StrField("new");
    var d0 := Put(Spread(defaults, body), "created_at", StrField(stamp.now));
    if IsStage(Get(d0, "stage")) then d0 else Put(d0, "stage", StrField("new"))
  }

  /** A stored deal has no key but the body's and those deal creation writes. */
  lemma DealRecordKeys(session: Record, body: Record, stamp: Stamp)
    ensures forall k :: k in DealRecord(session, body, stamp) ==> k in body || DealKey(k)
  {
    assert forall k :: k in DealLiterals(stamp) ==> DealKey(k);
    var defaults := DealDefaults(session, stamp);
    assert forall k :: k in defaults ==> DealKey(k);
  }

  /** A stored deal has the fresh id, `title ''`, `value 0` and `company_id null`
      wherever the body leaves them out. */
  lemma DealRecordDefaulted(session: Record, body: Record, stamp: Stamp)
    ensures DealDefaulted(DealRecord(session, body, stamp), body, stamp)
  {
    var defaults := DealDefaults(session, stamp);
    DealDefaultsLiterals(session, stamp);
    var spread := Spread(defaults, body);
    SpreadKeepsDealDefaulted(defaults, body, stamp);
    var d0 := Put(spread, "created_at", StrField(stamp.now));
    PutKeepsDealDefaulted(spread, body, stamp, "created_at", StrField(stamp.now));
    PutKeepsDealDefaulted(d0, body, stamp, "stage", StrField("new"));
  }

  /** PUT /api/deals/:id: a shallow merge, except that a stage outside the
      pipeline is replaced by the deal's previous stage. */
  function UpdateDeal(db: Db, session: Record, id: string, body: Record, stamp: Stamp): (r: Response)
    ensures r.result.Err? <==> forall j :: 0 <= j < |db.deals| ==> Get(db.deals[j], "id") != StrField(id)
    ensures r.result.Err? ==> r.result.error == NotFound && r.db == db
    ensures r.result.Ok? ==> var i := FindIndex(db.deals, id).value; var prev := db.deals[i]; var up := r.result.value;
      && OnlyChanged(db, r.db, Deals)
      && r.db.deals == db.deals[i := up]
      && Get(up, "stage") == (if IsStage(Get(body, "stage")) then Get(body, "stage") else Get(prev, "stage"))
      && Get(up, "updated_at") == StrField(stamp.now)
      && (forall k :: k in body && k != "stage" && k != "updated_at" ==> Get(up, k) == Some(body[k]))
      && (forall k :: k !in body && k != "stage" && k != "updated_at" ==> Get(up, k) == Get(prev, k))
      && r.db.audit[0] == AuditEntry(session, "update", "deal", Get(up, "id"), map[], stamp.auditId, stamp.auditAt)
  {
    match FindIndex(db.deals, id)
    case None => Response(db, Err(NotFound))
    case Some(i) =>
      var prev := db.deals[i];
      var up0 := Merge(prev, body, stamp.now);
      var up := if IsStage(Get(up0, "stage")) then up0 else Put(up0, "stage", Get(prev, "stage"));
      Replace(db, Deals, i, up, session, "update", "deal", map[], stamp)
  }

  /** POST /api/deals/:id/move: an unknown id is rejected first, then a stage
      outside the pipeline; a valid move sets only `stage` and `updated_at`. */
  function MoveDeal(db: Db, session: Record, id: string, body: Record, stamp: Stamp): (r: Response)
    ensures r.result.Err? ==> r.db == db
    ensures r.result.Ok? <==> FindIndex(db.deals, id).Some? && IsStage(Get(body, "stage"))
    ensures (r.result == Err(NotFound)) <==> forall j :: 0 <= j < |db.deals| ==> Get(db.deals[j], "id") != StrField(id)
    ensures (r.result == Err(BadStage)) <==> FindIndex(db.deals, id).Some? && !IsStage(Get(body, "stage"))
    ensures r.result.Ok? ==> var i := FindIndex(db.deals, id).value; var prev := db.deals[i]; var up := r.result.value;
      && OnlyChanged(db, r.db, Deals)
      && r.db.deals == db.deals[i := up]
      && Get(up, "stage") == Get(body, "stage") && IsStage(Get(up, "stage"))
      && Get(up, "updated_at") == StrField(stamp.now)
      && (forall k :: k != "stage" && k != "updated_at" ==> Get(up, k) == Get(prev, k))
      && r.db.audit[0] == AuditEntry(session, "move", "deal", Get(up, "id"), Put(map[], "stage", Get(body, "stage")),
                                     stamp.auditId, stamp.auditAt)
  {
    match FindIndex(db.deals, id)
    case None => Response(db, Err(NotFound))
    case Some(i) =>
      var stage := Get(body, "stage");
      if !IsStage(stage) then Response(db, Err(BadStage))
      else
        var up := Put(Put(db.deals[i], "stage", stage), "updated_at", StrField(stamp.now));
        Replace(db, Deals, i, up, session, "move", "deal", Put(map[], "stage", stage), stamp)
  }

  // ---------------------------------------------------------------------
  // Activities: the ownership stamps come after the body
  // ---------------------------------------------------------------------

  /** An activity whose body leaves out `id`, `type`, `due_at` or `done` gets
      the fresh id, `'task'`, `null` or `false` for it. */
  predicate ActivityDefaulted(a: Record, body: Record, stamp: Stamp)
  {
    && ("id" !in body ==> Get(a, "id") == StrField(stamp.id))
    && ("type" !in body ==> Get(a, "type") == StrField("task"))
    && ("due_at" !in body ==> Get(a, "due_at") == Some(Null))
    && ("done" !in body ==> Get(a, "done") == Some(Bool(false)))
  }

  /** `{ id, type: 'task', due_at: null, done: false, ...req.body, owner_id, team, zone, created_at }`. */
  function ActivityRecord(session: Record, body: Record, stamp: Stamp): (a: Record)
    ensures forall k :: IsOwnerKey(k) ==> Get(a, k) == Get(session, OwnerKey(k))
    ensures Get(a, "created_at") == StrField(stamp.now)
    ensures forall k :: k in body && !IsOwnerKey(k) && k != "created_at" ==> Get(a, k) == Some(body[k])
    ensures forall k :: k in a ==> k in body || ActivityKey(k)
  {
    Put(Owned(Spread(ActivityLiterals(stamp), body), session), "created_at", StrField(stamp.now))
  }

  /** `{ id, type: 'task', due_at: null, done: false }`. */
  function ActivityLiterals(stamp: Stamp): Record
  {
    map["id" := Str(stamp.id), "type" := Str("task"), "due_at" := Null, "done" := Bool(false)]
  }

  /** A stored activity has the fresh id, `type 'task'`, `due_at null` and
      `done false` wherever the body leaves them out. */
  lemma ActivityRecordDefaulted(session: Record, body: Record, stamp: Stamp)
    ensures ActivityDefaulted(ActivityRecord(session, body, stamp), body, stamp)
  {
    assert ActivityDefaulted(ActivityLiterals(stamp), map[], stamp);
    var spread := Spread(ActivityLiterals(stamp), body);
    assert ActivityDefaulted(spread, body, stamp);
    assert !IsOwnerKey("id") && !IsOwnerKey("type") && !IsOwnerKey("due_at") && !IsOwnerKey("done");
    assert ActivityDefaulted(Owned(spread, session), body, stamp);
  }

  /** POST /api/activities: the session, not the body, decides ownership. */
  function CreateActivity(db: Db, session: Record, body: Record, stamp: Stamp): (r: Response)
    ensures r.result.Ok? && |r.db.activities| == |db.activities| + 1
    ensures r.db.activities[0] == r.result.value && r.db.activities[1..] == db.activities
    ensures OnlyChanged(db, r.db, Activities)
    ensures forall k :: IsOwnerKey(k) ==> Get(r.result.value, k) == Get(session, OwnerKey(k))
    ensures Get(r.result.value, "created_at") == StrField(stamp.now)
    ensures forall k :: k in body && !IsOwnerKey(k) && k != "created_at" ==>
      Get(r.result.value, k) == Some(body[k])
    ensures ActivityDefaulted(r.result.value, body, stamp)
    ensures r.db.audit[0] == AuditEntry(session, "create", "activity", Get(r.result.value, "id"),
                                        Put(map[], "type", Get(r.result.value, "type")), stamp.auditId, stamp.auditAt)
    ensures forall k :: k in r.result.value ==> k in body || ActivityKey(k)
  {
    var a := ActivityRecord(session, body, stamp);
    ActivityRecordDefaulted(session, body, stamp);
    Prepend(db, Activities, a, session, "activity", Put(map[], "type", Get(a, "type")), stamp)
  }

  /** PUT /api/activities/:id. */
  function UpdateActivity(db: Db, session: Record, id: string, body: Record, stamp: Stamp): (r: Response)
    ensures r.result.Err? <==> forall j :: 0 <= j < |db.activities| ==> Get(db.activities[j], "id") != StrField(id)
    ensures r.result.Err? ==> r.result.error == NotFound && r.db == db
    ensures r.result.Ok? ==> OnlyChanged(db, r.db, Activities) && |r.db.activities| == |db.activities|
    ensures r.result.Ok? ==> var i := FindIndex(db.activities, id).value;
      && r.result.value == Merge(db.activities[i], body, stamp.now)
      && Rows(r.db, Activities) == db.activities[i := r.result.value]
      && r.db.audit[0] == AuditEntry(session, "update", "activity", Get(r.result.value, "id"), map[], stamp.auditId, stamp.auditAt)
  {
    UpdatePlain(db, Activities, "activity", session, id, body, stamp)
  }

  // ---------------------------------------------------------------------
  // Users
  // ---------------------------------------------------------------------

  /** A destructuring default `{ k = d }`: applies only when the value is `undefined`. */
  function Default(v: Option<Json>, d: Json): (r: Json)
    ensures v.Some? ==> r == v.value
    ensures v.None? ==> r == d
  {
    if v.Some? then v.value else d
  }

  /** A destructuring default differs from `??`: an explicit `null` is kept
      by the default and replaced by `??`; `undefined` is replaced by both. */
  lemma DefaultKeepsNull(d: Json)
    requires d != Null
    ensures Default(Some(Null), d) == Null && Coalesce(Some(Null), d) == d
    ensures Default(None, d) == d == Coalesce(None, d)
  {
  }

  /** Some user already has this email (`db.users.some(u => u.email === email)`). */
  predicate EmailTaken(users: seq<Record>, email: Option<Json>)
  {
    exists j :: 0 <= j < |users| && StrictEq(Get(users[j], "email"), email)
  }

  /** The fields user creation both stores and replies with: the fresh id,
      the body's email and name, and role, team and zone defaulted to
      `staff`, `HQ` and `BKK` when the body leaves them out. */
  predicate UserProfile(u: Record, body: Record, stamp: Stamp)
  {
    && Get(u, "id") == StrField(stamp.id)
    && Get(u, "email") == Get(body, "email")
    && Get(u, "name") == Get(body, "name")
    && Get(u, "role") == Some(Default(Get(body, "role"), Str("staff")))
    && Get(u, "team") == Some(Default(Get(body, "team"), Str("HQ")))
    && Get(u, "zone") == Some(Default(Get(body, "zone"), Str("BKK")))
  }

  /** The stored user: the profile, the hash of the password (default
      `123456`) and the creation time. */
  predicate UserStored(row: Record, body: Record, hash: Json -> string, stamp: Stamp)
  {
    && UserProfile(row, body, stamp)
    && Get(row, "password_hash") == StrField(hash(Default(Get(body, "password"), Str("123456"))))
    && Get(row, "created_at") == StrField(stamp.now)
  }

  /** The audit detail `{ email, role }` of user creation. */
  function UserDetail(body: Record): (d: Record)
    ensures Get(d, "email") == Get(body, "email")
    ensures Get(d, "role") == Some(Default(Get(body, "role"), Str("staff")))
    ensures forall k :: k in d ==> k == "email" || k == "role"
  {
    Put(map[], "email", Get(body, "email"))["role" := Default(Get(body, "role"), Str("staff"))]
  }

  /** POST /api/users. A duplicate email is rejected; otherwise the user is
      appended with role, team, zone and password defaulted, the password
      replaced by `hash` of it, and the reply leaves the hash out. */
  function CreateUser(db: Db, session: Record, body: Record, hash: Json -> string, stamp: Stamp): (r: Response)
    ensures r.result.Err? <==> EmailTaken(db.users, Get(body, "email"))
    ensures r.result.Err? ==> r.result.error == EmailExists && r.db == db
    ensures r.result.Ok? ==>
      && OnlyChanged(db, r.db, Users)
      && |r.db.users| == |db.users| + 1 && r.db.users[..|db.users|] == db.users
      && UserStored(r.db.users[|db.users|], body, hash, stamp)
      && UserProfile(r.result.value, body, stamp) && "password_hash" !in r.result.value
      && r.db.audit[0] == AuditEntry(session, "create", "user", StrField(stamp.id), UserDetail(body),
                                     stamp.auditId, stamp.auditAt)
  {
    if EmailTaken(db.users, Get(body, "email")) then Response(db, Err(EmailExists))
    else AddUser(db, session, body, hash, stamp)
  }

  /** The second half of user creation, after the password is hashed: the
      row is pushed and audited, with no check of the email. */
  function AddUser(db: Db, session: Record, body: Record, hash: Json -> string, stamp: Stamp): (r: Response)
    ensures r.result.Ok?
    ensures OnlyChanged(db, r.db, Users)
    ensures |r.db.users| == |db.users| + 1 && r.db.users[..|db.users|] == db.users
    ensures UserStored(r.db.users[|db.users|], body, hash, stamp)
    ensures UserProfile(r.result.value, body, stamp) && "password_hash" !in r.result.value
    ensures r.db.audit[0] == AuditEntry(session, "create", "user", StrField(stamp.id), UserDetail(body),
                                        stamp.auditId, stamp.auditAt)
  {
    var row := UserRow(body, hash, stamp);
    var db1 := WithRows(db, Users, db.users + [row]);
    var db2 := Audit(db1, session, "create", "user", Some(Str(stamp.id)), UserDetail(body), stamp);
    Response(db2, Ok(UserFields(body, stamp)))
  }

  /** `{ id, email, name, role, team, zone }` with the destructuring defaults
      applied: the reply of user creation. */
  function UserFields(body: Record, stamp: Stamp): (u: Record)
    ensures UserProfile(u, body, stamp)
    ensures "password_hash" !in u
  {
    Put(Put(map["id" := Str(stamp.id)], "email", Get(body, "email")), "name", Get(body, "name"))
      ["role" := Default(Get(body, "role"), Str("staff"))]
      ["team" := Default(Get(body, "team"), Str("HQ"))]
      ["zone" := Default(Get(body, "zone"), Str("BKK"))]
  }

  /** The stored user: the reply's fields plus the password hash and `created_at`. */
  function UserRow(body: Record, hash: Json -> string, stamp: Stamp): (row: Record)
    ensures UserStored(row, body, hash, stamp)
  {
    UserFields(body, stamp)
      ["password_hash" := Str(hash(Default(Get(body, "password"), Str("123456"))))]
      ["created_at" := Str(stamp.now)]
  }
}

=== FILE: errors.dfy ===
/** The error responses of the request handlers in the model. */
module Errors {

  datatype Error =
    | NotFound        // unknown id: HTTP 404 "not found"
    | BadStage        // deal move to a stage outside the pipeline: HTTP 400 "bad stage"
    | EmailExists     // user creation with an email already taken: HTTP 400 "email exists"
    | UnknownEntity   // export of a collection without a column list: HTTP 404 "unknown entity"
    | TypeError       // a JavaScript TypeError thrown inside a handler: HTTP 500
}

=== FILE: json.dfy ===
/** JSON values and records as the CRM stores them, with the few JavaScript
    operators the server applies to them: property read, object literals and
    spread, truthiness, `===`, `||` and `??`. */
module Json {
  import opened Wrappers

  /** A JSON value held in the document. Objects appear as audit details;
      arrays and fractional numbers are not modelled. */
  datatype Json = Null | Bool(b: bool) | Num(n: int) | Str(s: string) | Obj(fields: map<string, Json>)

  /** A stored record, a request body or a session payload: a JSON object.
      A key that is absent reads as `undefined`. */
  type Record = map<string, Json>

  /** Property read `r.k`; `None` is `undefined`. */
  function Get(r: Record, k: string): (v: Option<Json>)
    ensures v.Some? <==> k in r
    ensures v.Some? ==> v.value == r[k]
  {
    if k in r then Some(r[k]) else None
  }

  /** Assignment `r.k = v` or the literal entry `k: v`. Assigning `undefined`
      leaves the key without a value, which is how the document stores it. */
  function Put(r: Record, k: string, v: Option<Json>): (r': Record)
    ensures Get(r', k) == v
    ensures forall j :: j != k ==> Get(r', j) == Get(r, j)
  {
    match v
    case None => r - {k}
    case Some(x) => r[k := x]
  }

  /** The object literal `{...a, ...b}`: every key of `b` wins over `a`. */
  function Spread(a: Record, b: Record): (r: Record)
    ensures forall k :: k in b ==> Get(r, k) == Some(b[k])
    ensures forall k :: k !in b ==> Get(r, k) == Get(a, k)
    ensures r.Keys == a.Keys + b.Keys
  {
    a + b
  }

  /** JavaScript truthiness of a field value. */
  predicate Truthy(v: Option<Json>)
  {
    match v
    case None => false
    case Some(Null) => false
    case Some(Bool(b)) => b
    case Some(Num(n)) => n != 0
    case Some(Str(s)) => s != ""
    case Some(Obj(_)) => true
  }

  /** `a === b`. Primitives compare by value and `undefined === undefined`;
      two objects are equal only when they are the same reference, which
      never happens for values parsed from different requests or documents. */
  predicate StrictEq(a: Option<Json>, b: Option<Json>)
  {
    a == b && !(a.Some? && a.value.Obj?)
  }

  /** `v || d`. */
  function OrElse(v: Option<Json>, d: Json): (r: Json)
    ensures Truthy(v) ==> Some(r) == v
    ensures !Truthy(v) ==> r == d
  {
    if Truthy(v) then v.value else d
  }

  /** `v ?? d`: only `undefined` and `null` are replaced. */
  function Coalesce(v: Option<Json>, d: Json): (r: Json)
    ensures v.Some? && !v.value.Null? ==> Some(r) == v
    ensures v.None? || v.value.Null? ==> r == d
  {
    if v.Some? && !v.value.Null? then v.value else d
  }

  /** A string-valued field equal to `s`. */
  function StrField(s: string): Option<Json>
  {
    Some(Str(s))
  }
}

=== FILE: kpi.dfy ===
/** GET /api/kpi: counts and sums over the deals a session may list. */
module Kpi {
  import opened Wrappers
  import opened Json
  import opened Seqs
  import opened Errors
  import opened Store
  import opened Visibility

  /** One entry of `byStage`. */
  datatype StageCount = StageCount(stage: string, count: nat)

  /** The `data` object of the KPI reply. */
  datatype Kpi = Kpi(total: nat, wonCount: nat, estSum: int, wonSum: int, byStage: seq<StageCount>)

  /** A non-empty run of decimal digits. */
  predicate IsDigits(s: string)
  {
    |s| > 0 && forall i :: 0 <= i < |s| ==> '0' <= s[i] <= '9'
  }

  /** The value of a run of decimal digits. */
  function DecimalValue(s: string): (n: nat)
    requires forall i :: 0 <= i < |s| ==> '0' <= s[i] <= '9'
    decreases |s|
  {
    if s == [] then 0 else DecimalValue(s[..|s| - 1]) * 10 + (s[|s| - 1] as int - '0' as int)
  }

  /** `Number(v) || 0` on integer-valued JSON: a number is itself, `true` is 1,
      a string of decimal digits is its value, and anything else counts 0. */
  function Amount(v: Option<Json>): int
  {
    match v
    case Some(Num(n)) => n
    case Some(Bool(b)) => if b then 1 else 0
    case Some(Str(s)) => if IsDigits(s) then DecimalValue(s) else 0
    case _ => 0
  }

  /** `deals.reduce((s, d) => s + (Number(d.value) || 0), 0)`. */
  function SumAmounts(deals: seq<Record>): int
    decreases |deals|
  {
    if deals == [] then 0 else Amount(Get(deals[0], "value")) + SumAmounts(deals[1..])
  }

  /** `Number(v) || 0` on sample values: numbers and digit strings count at
      face value, `true` counts 1, and `null`, `""`, non-numeric strings and
      objects count 0. */
  lemma AmountExamples()
    ensures Amount(Some(Num(-5))) == -5 && Amount(Some(Str("007"))) == 7 && Amount(Some(Bool(true))) == 1
    ensures Amount(None) == 0 && Amount(Some(Null)) == 0 && Amount(Some(Str(""))) == 0
    ensures Amount(Some(Str("12a"))) == 0 && Amount(Some(Obj(map[]))) == 0
  {
    assert !IsDigits("12a") by { assert !('0' <= "12a"[2] <= '9'); }
    assert DecimalValue("0") == 0;
    assert DecimalValue("00") == 0 by { assert "00"[..1] == "0"; }
    assert "007"[..2] == "00";
  }

  /** The reduce over a concatenation is the sum of the two reduces. */
  lemma {:induction false} SumAmountsAppend(a: seq<Record>, b: seq<Record>)
    ensures SumAmounts(a + b) == SumAmounts(a) + SumAmounts(b)
    decreases |a|
  {
    if a == [] {
      assert a + b == b;
    } else {
      SumAmountsAppend(a[1..], b);
      assert (a + b)[1..] == a[1..] + b;
    }
  }

  /** `d.stage === s`. */
  predicate HasStage(s: string, d: Record)
  {
    Get(d, "stage") == StrField(s)
  }

  /** `deals.filter(d => d.stage === s).length`. */
  function CountStage(deals: seq<Record>, s: string): nat
  {
    |Filter(deals, d => HasStage(s, d))|
  }

  /** `stages.map(s => ({ stage: s, count: ... }))`. */
  function Counts(deals: seq<Record>, stages: seq<string>): (r: seq<StageCount>)
    ensures |r| == |stages|
    ensures forall i :: 0 <= i < |stages| ==> r[i] == StageCount(stages[i], CountStage(deals, stages[i]))
    decreases |stages|
  {
    if stages == [] then [] else [StageCount(stages[0], CountStage(deals, stages[0]))] + Counts(deals, stages[1..])
  }

  /** The sum of the counts in a breakdown. */
  function SumCounts(bs: seq<StageCount>): nat
    decreases |bs|
  {
    if bs == [] then 0 else bs[0].count + SumCounts(bs[1..])
  }

  /** The aggregation step of GET /api/kpi over the listed deals. */
  function Aggregate(deals: seq<Record>): (k: Kpi)
    ensures k.total == |deals|
    ensures k.wonCount <= k.total
    ensures |k.byStage| == |STAGES| == 6
    ensures forall i :: 0 <= i < |STAGES| ==> k.byStage[i].stage == STAGES[i]
    ensures k.wonCount == k.byStage[4].count == CountStage(deals, "won")
    ensures k.estSum == SumAmounts(deals)
    ensures k.wonSum == SumAmounts(Filter(deals, d => HasStage("won", d)))
  {
    var won := Filter(deals, d => HasStage("won", d));
    Kpi(|deals|, |won|, SumAmounts(deals), SumAmounts(won), Counts(deals, STAGES))
  }

  /** GET /api/kpi: aggregate the deals `listFilter` returns for the session and query. */
  function KpiOf(db: Db, user: Option<Record>, query: Option<Query>, text: Record -> string)
    : (r: Result<Kpi, Error>)
    ensures r.Err? <==> ListFilter(db.deals, user, query, text).Err?
    ensures r.Ok? ==> r.value.total == |ListFilter(db.deals, user, query, text).value|
    ensures r.Ok? ==> r.value == Aggregate(ListFilter(db.deals, user, query, text).value)
  {
    var deals :- ListFilter(db.deals, user, query, text);
    Ok(Aggregate(deals))
  }

  // ---------------------------------------------------------------------
  // Properties of the breakdown and the sums
  // ---------------------------------------------------------------------

  /** How many of `stages` a deal's stage equals. */
  function Occurrences(d: Record, stages: seq<string>): nat
    decreases |stages|
  {
    if stages == [] then 0 else (if HasStage(stages[0], d) then 1 else 0) + Occurrences(d, stages[1..])
  }

  /** No stage name is listed twice. */
  predicate Distinct(stages: seq<string>)
  {
    forall i, j :: 0 <= i < j < |stages| ==> stages[i] != stages[j]
  }

  /** A deal whose stage is among distinct stage names matches exactly one of them. */
  lemma {:induction false} OccursOnce(d: Record, stages: seq<string>)
    requires Distinct(stages)
    requires Get(d, "stage").Some? && Get(d, "stage").value.Str? && Get(d, "stage").value.s in stages
    ensures Occurrences(d, stages) == 1
    decreases |stages|
  {
    if HasStage(stages[0], d) {
      NoOccurrence(d, stages[1..]);
    } else {
      OccursOnce(d, stages[1..]);
    }
  }

  /** A deal whose stage is not among the stage names matches none of them. */
  lemma {:induction false} NoOccurrence(d: Record, stages: seq<string>)
    requires Get(d, "stage").Some? ==> !(Get(d, "stage").value.Str? && Get(d, "stage").value.s in stages)
    ensures Occurrences(d, stages) == 0
    decreases |stages|
  {
    if stages != [] {
      NoOccurrence(d, stages[1..]);
    }
  }

  /** Adding one deal in front adds its occurrences to the summed breakdown. */
  lemma {:induction false} CountsCons(d: Record, rest: seq<Record>, stages: seq<string>)
    ensures SumCounts(Counts([d] + rest, stages)) == Occurrences(d, stages) + SumCounts(Counts(rest, stages))
    decreases |stages|
  {
    if stages != [] {
      assert ([d] + rest)[1..] == rest;
      CountsCons(d, rest, stages[1..]);
    }
  }

  /** The pipeline's stage names are distinct. */
  lemma StagesDistinct()
    ensures Distinct(STAGES)
  {
  }

  /** Every deal's stage is a string among `stages`. */
  predicate StagedIn(deals: seq<Record>, stages: seq<string>)
  {
    forall i :: 0 <= i < |deals| ==>
      Get(deals[i], "stage").Some? && Get(deals[i], "stage").value.Str? && Get(deals[i], "stage").value.s in stages
  }

  /** Summed over distinct stage names, the per-stage counts of deals staged
      among them account for every deal once. */
  lemma {:induction false} CountsSumToLength(deals: seq<Record>, stages: seq<string>)
    requires Distinct(stages) && StagedIn(deals, stages)
    ensures SumCounts(Counts(deals, stages)) == |deals|
    decreases |deals|
  {
    if deals == [] {
      EmptyCounts(stages);
    } else {
      CountsSumToLength(deals[1..], stages);
      CountsCons(deals[0], deals[1..], stages);
      assert [deals[0]] + deals[1..] == deals;
      OccursOnce(deals[0], stages);
    }
  }

  /** `byStage` sums to `total` when every deal's stage is in `STAGES`. */
  lemma ByStageSumsToTotal(deals: seq<Record>)
    requires AllStaged(deals)
    ensures SumCounts(Aggregate(deals).byStage) == Aggregate(deals).total
  {
    StagesDistinct();
    CountsSumToLength(deals, STAGES);
  }

  /** Over no deals every count is zero. */
  lemma {:induction false} EmptyCounts(stages: seq<string>)
    ensures SumCounts(Counts([], stages)) == 0
    decreases |stages|
  {
    if stages != [] {
      EmptyCounts(stages[1..]);
    }
  }

  /** Summing over a filter and over its complement gives the whole sum. */
  lemma {:induction false} SumSplits(deals: seq<Record>, p: Record -> bool)
    ensures SumAmounts(deals) == SumAmounts(Filter(deals, p)) + SumAmounts(Filter(deals, d => !p(d)))
    decreases |deals|
  {
    if deals != [] {
      SumSplits(deals[1..], p);
      var q := d => !p(d);
      var x := deals[0];
      if p(x) {
        assert Filter(deals, q) == Filter(deals[1..], q);
        assert Filter(deals, p) == [x] + Filter(deals[1..], p);
        assert ([x] + Filter(deals[1..], p))[1..] == Filter(deals[1..], p);
      } else {
        assert Filter(deals, p) == Filter(deals[1..], p);
        assert Filter(deals, q) == [x] + Filter(deals[1..], q);
        assert ([x] + Filter(deals[1..], q))[1..] == Filter(deals[1..], q);
      }
    }
  }

  /** `estSum` is `wonSum` plus the sum over the deals that are not won. */
  lemma EstSumSplitsOnWon(deals: seq<Record>)
    ensures Aggregate(deals).estSum
      == Aggregate(deals).wonSum + SumAmounts(Filter(deals, d => !HasStage("won", d)))
  {
    var won := d => HasStage("won", d);
    SumSplits(deals, won);
    FilterExt(deals, d => !won(d), d => !HasStage("won", d));
  }

  /** On the listing of a document whose deals are all staged, the
      breakdown sums to `total`. */
  lemma KpiByStageSumsToTotal(db: Db, user: Option<Record>, query: Option<Query>, text: Record -> string)
    requires AllStaged(db.deals)
    ensures var r := KpiOf(db, user, query, text);
      r.Ok? ==> SumCounts(r.value.byStage) == r.value.total
  {
    ListFilterMeaning(db.deals, user, query, text);
    var r := ListFilter(db.deals, user, query, text);
    if r.Ok? {
      forall i | 0 <= i < |r.value|
        ensures IsStage(Get(r.value[i], "stage"))
      {
        var j :| 0 <= j < |db.deals| && db.deals[j] == r.value[i];
      }
      ByStageSumsToTotal(r.value);
    }
  }

  /** Counting a stage over two deals. */
  lemma CountStagePair(a: Record, b: Record, s: string)
    ensures CountStage([a, b], s) == (if HasStage(s, a) then 1 else 0) + (if HasStage(s, b) then 1 else 0)
  {
    var p := d => HasStage(s, d);
    assert [a, b][1..] == [b];
    assert [b][1..] == [];
    assert Filter([b], p) == (if p(b) then [b] else []) + Filter([], p);
    assert Filter([a, b], p) == (if p(a) then [a] else []) + Filter([b], p);
  }

  /** The worked example: one won deal of 100 and one new deal of 50. */
  lemma WorkedExample()
    ensures var k := Aggregate([map["value" := Num(100), "stage" := Str("won")],
                                map["value" := Num(50), "stage" := Str("new")]]);
      && k.total == 2 && k.wonCount == 1 && k.estSum == 150 && k.wonSum == 100
      && k.byStage[0] == StageCount("new", 1) && k.byStage[4] == StageCount("won", 1)
  {
    var a: Record := map["value" := Num(100), "stage" := Str("won")];
    var b: Record := map["value" := Num(50), "stage" := Str("new")];
    ExampleSums(a, b);
    CountStagePair(a, b, "new");
  }

  lemma ExampleSums(a: Record, b: Record)
    requires a == map["value" := Num(100), "stage" := Str("won")]
    requires b == map["value" := Num(50), "stage" := Str("new")]
    ensures Aggregate([a, b]).estSum == 150 && Aggregate([a, b]).wonSum == 100
    ensures Aggregate([a, b]).wonCount == 1
  {
    assert Amount(Get(a, "value")) == 100 && Amount(Get(b, "value")) == 50;
    assert [a, b][1..] == [b] && [b][1..] == [] && [a][1..] == [];
    assert SumAmounts([b]) == 50 && SumAmounts([a]) == 100;
    assert SumAmounts([a, b]) == Amount(Get(a, "value")) + SumAmounts([b]);
    assert Filter([a, b], d => HasStage("won", d)) == [a] by {
      assert Filter([b], d => HasStage("won", d)) == [];
    }
  }
}

=== FILE: seqs.dfy ===
/** Sequence utilities standing for `Array.prototype.filter`, `join` and
    `String.prototype.split`, with the facts the rest of the model needs. */
module Seqs {

  /** `s.filter(p)`: keeps the elements satisfying `p`, left to right. */
  function Filter<T(==)>(s: seq<T>, p: T -> bool): (r: seq<T>)
    ensures |r| <= |s|
    ensures forall i :: 0 <= i < |r| ==> r[i] in s && p(r[i])
    ensures forall i :: 0 <= i < |s| && p(s[i]) ==> s[i] in r
    decreases |s|
  {
    if s == [] then []
    else (if p(s[0]) then [s[0]] else []) + Filter(s[1..], p)
  }

  /** `a` is obtained from `b` by deleting elements, without reordering. */
  predicate IsSubseq<T(==)>(a: seq<T>, b: seq<T>)
    decreases |b|
  {
    a == [] || (b != [] && ((a[0] == b[0] && IsSubseq(a[1..], b[1..])) || IsSubseq(a, b[1..])))
  }

  /** Every sequence is a subsequence of itself. */
  lemma {:induction false} IsSubseqRefl<T>(s: seq<T>)
    ensures IsSubseq(s, s)
    decreases |s|
  {
    if s != [] {
      IsSubseqRefl(s[1..]);
    }
  }

  /** A filter keeps every copy of an element that satisfies the predicate and
      no copy of one that does not. */
  lemma {:induction false} FilterMultiset<T>(s: seq<T>, p: T -> bool)
    ensures forall x :: multiset(Filter(s, p))[x] == if p(x) then multiset(s)[x] else 0
    decreases |s|
  {
    if s != [] {
      FilterMultiset(s[1..], p);
      assert s == [s[0]] + s[1..];
      assert Filter(s, p) == (if p(s[0]) then [s[0]] else []) + Filter(s[1..], p);
    }
  }

  /** A filter result is an order-preserving subsequence of its input. */
  lemma {:induction false} FilterIsSubseq<T>(s: seq<T>, p: T -> bool)
    ensures IsSubseq(Filter(s, p), s)
    decreases |s|
  {
    if s != [] {
      FilterIsSubseq(s[1..], p);
      if p(s[0]) {
        assert Filter(s, p) == [s[0]] + Filter(s[1..], p);
        assert Filter(s, p)[1..] == Filter(s[1..], p);
      } else {
        assert Filter(s, p) == Filter(s[1..], p);
      }
    }
  }

  /** Filtering twice is filtering once by the conjunction. */
  lemma {:induction false} FilterFuse<T>(s: seq<T>, p: T -> bool, q: T -> bool)
    ensures Filter(Filter(s, p), q) == Filter(s, x => p(x) && q(x))
    decreases |s|
  {
    if s != [] {
      FilterFuse(s[1..], p, q);
      var head := if p(s[0]) then [s[0]] else [];
      FilterAppend(head, Filter(s[1..], p), q);
    }
  }

  /** Filtering distributes over concatenation. */
  lemma {:induction false} FilterAppend<T>(a: seq<T>, b: seq<T>, p: T -> bool)
    ensures Filter(a + b, p) == Filter(a, p) + Filter(b, p)
    decreases |a|
  {
    if a != [] {
      assert (a + b)[1..] == a[1..] + b;
      FilterAppend(a[1..], b, p);
    } else {
      assert a + b == b;
    }
  }

  /** Two predicates that agree on the elements of `s` filter it alike. */
  lemma {:induction false} FilterExt<T>(s: seq<T>, p: T -> bool, q: T -> bool)
    requires forall i :: 0 <= i < |s| ==> p(s[i]) == q(s[i])
    ensures Filter(s, p) == Filter(s, q)
    decreases |s|
  {
    if s != [] {
      FilterExt(s[1..], p, q);
    }
  }

  /** A predicate every element satisfies removes nothing. */
  lemma {:induction false} FilterAll<T>(s: seq<T>, p: T -> bool)
    requires forall i :: 0 <= i < |s| ==> p(s[i])
    ensures Filter(s, p) == s
    decreases |s|
  {
    if s != [] {
      FilterAll(s[1..], p);
    }
  }

  /** A predicate no element satisfies removes everything. */
  lemma {:induction false} FilterNone<T>(s: seq<T>, p: T -> bool)
    requires forall i :: 0 <= i < |s| ==> !p(s[i])
    ensures Filter(s, p) == []
    decreases |s|
  {
    if s != [] {
      FilterNone(s[1..], p);
    }
  }

  /** `if (active) out = out.filter(p)`: a filter step that a query may switch off. */
  function FilterIf<T(==)>(s: seq<T>, active: bool, p: T -> bool): (r: seq<T>)
    ensures !active ==> r == s
    ensures active ==> r == Filter(s, p)
  {
    if active then Filter(s, p) else s
  }

  /** A conditional step after a filter by `p` is one filter by `p'`, the
      conjunction of `p` with the step's predicate when the step is active. */
  lemma FilterIfStep<T>(s: seq<T>, p: T -> bool, active: bool, q: T -> bool, p': T -> bool)
    requires forall i :: 0 <= i < |s| ==> p'(s[i]) == (p(s[i]) && (!active || q(s[i])))
    ensures FilterIf(Filter(s, p), active, q) == Filter(s, p')
  {
    if active {
      FilterFuse(s, p, q);
      FilterExt(s, x => p(x) && q(x), p');
    } else {
      FilterExt(s, p, p');
    }
  }

  /** `parts.join(sep)`. */
  function Join(parts: seq<string>, sep: char): string
    decreases |parts|
  {
    if parts == [] then ""
    else if |parts| == 1 then parts[0]
    else parts[0] + [sep] + Join(parts[1..], sep)
  }

  /** `s.split(sep)`: the pieces between occurrences of `sep`; never empty. */
  function Split(s: string, sep: char): (r: seq<string>)
    ensures |r| > 0
    decreases |s|
  {
    if s == [] then [""]
    else
      var rest := Split(s[1..], sep);
      if s[0] == sep then [""] + rest
      else [[s[0]] + rest[0]] + rest[1..]
  }

  /** A piece free of the separator splits to itself. */
  lemma {:induction false} SplitPlain(a: string, sep: char)
    requires sep !in a
    ensures Split(a, sep) == [a]
    decreases |a|
  {
    if a != [] {
      SplitPlain(a[1..], sep);
      assert [a[0]] + a[1..] == a;
    }
  }

  /** Splitting `a + sep + t` cuts off exactly `a` when `a` holds no separator. */
  lemma {:induction false} SplitFirst(a: string, t: string, sep: char)
    requires sep !in a
    ensures Split(a + [sep] + t, sep) == [a] + Split(t, sep)
    decreases |a|
  {
    if a == [] {
      assert a + [sep] + t == [sep] + t;
      assert ([sep] + t)[1..] == t;
    } else {
      var s := a + [sep] + t;
      assert s[0] == a[0];
      assert s[1..] == a[1..] + [sep] + t;
      SplitFirst(a[1..], t, sep);
      assert [a[0]] + a[1..] == a;
    }
  }

  /** `split` undoes `join` when no part contains the separator. */
  lemma {:induction false} SplitJoin(parts: seq<string>, sep: char)
    requires |parts| > 0
    requires forall i :: 0 <= i < |parts| ==> sep !in parts[i]
    ensures Split(Join(parts, sep), sep) == parts
    decreases |parts|
  {
    if |parts| == 1 {
      SplitPlain(parts[0], sep);
    } else {
      SplitJoin(parts[1..], sep);
      SplitFirst(parts[0], Join(parts[1..], sep), sep);
      assert [parts[0]] + parts[1..] == parts;
    }
  }
}

=== FILE: store.dfy ===
/** The in-memory document: seven collections of records, the deal pipeline
    stages, and the audit log every mutating handler writes to. */
module Store {
  import opened Wrappers
  import opened Json
  import Errors

  /** `STAGES`: the deal pipeline, in display order. */
  const STAGES: seq<string> := ["new", "qualify", "proposal", "negotiation", "won", "lost"]

  /** `STAGES.includes(v)`: the value is one of the pipeline's stage names. */
  predicate IsStage(v: Option<Json>)
  {
    v.Some? && v.value.Str? && v.value.s in STAGES
  }

  /** Every deal carries a stage of the pipeline. */
  predicate AllStaged(deals: seq<Record>)
  {
    forall i :: 0 <= i < |deals| ==> IsStage(Get(deals[i], "stage"))
  }

  /** After a staged deal is prepended, every deal is staged exactly when every deal was before. */
  lemma PrependKeepsStaged(deal: Record, deals: seq<Record>)
    requires IsStage(Get(deal, "stage"))
    ensures AllStaged([deal] + deals) <==> AllStaged(deals)
  {
    var all := [deal] + deals;
    assert forall i :: 0 <= i < |deals| ==> all[i + 1] == deals[i];
    if AllStaged(deals) {
      forall i | 0 <= i < |all|
        ensures IsStage(Get(all[i], "stage"))
      {
        if i > 0 {
          assert all[i] == deals[i - 1];
        }
      }
    }
  }

  /** The whole document. Each collection is ordered newest first where the
      handlers prepend, oldest first where they append. */
  datatype Db = Db(
    users: seq<Record>,
    companies: seq<Record>,
    contacts: seq<Record>,
    deals: seq<Record>,
    activities: seq<Record>,
    attachments: seq<Record>,
    audit: seq<Record>)

  /** The empty document a fresh installation starts from (`defaultData`). */
  const Empty: Db := Db([], [], [], [], [], [], [])

  /** The values one request draws from `nanoid` and `new Date()`: the new
      record's id and time stamp, and the audit entry's id and time stamp. */
  datatype Stamp = Stamp(id: string, now: string, auditId: string, auditAt: string)

  /** What a handler leaves behind: the document, and the JSON reply's data or error. */
  datatype Response = Response(db: Db, result: Result<Record, Errors.Error>)

  /** The collections the entity handlers write to, besides the audit log. */
  datatype Coll = Users | Companies | Contacts | Deals | Activities | Attachments

  function Rows(db: Db, c: Coll): seq<Record>
  {
    match c
    case Users => db.users
    case Companies => db.companies
    case Contacts => db.contacts
    case Deals => db.deals
    case Activities => db.activities
    case Attachments => db.attachments
  }

  function WithRows(db: Db, c: Coll, rows: seq<Record>): (db': Db)
    ensures Rows(db', c) == rows
    ensures forall c' :: c' != c ==> Rows(db', c') == Rows(db, c')
    ensures db'.audit == db.audit
  {
    match c
    case Users => db.(users := rows)
    case Companies => db.(companies := rows)
    case Contacts => db.(contacts := rows)
    case Deals => db.(deals := rows)
    case Activities => db.(activities := rows)
    case Attachments => db.(attachments := rows)
  }

  /** The entry `audit(user, action, entity, entity_id, detail)` records:
      `by` is the session's user id when it is set, `null` otherwise. */
  function AuditEntry(session: Record, action: string, entity: string, entityId: Option<Json>,
                      detail: Record, id: string, at: string): (e: Record)
    ensures Get(e, "id") == StrField(id) && Get(e, "at") == StrField(at)
    ensures Get(e, "by") == if Truthy(Get(session, "uid")) then Get(session, "uid") else Some(Null)
    ensures Get(e, "action") == StrField(action) && Get(e, "entity") == StrField(entity)
    ensures Get(e, "entity_id") == entityId && Get(e, "detail") == Some(Obj(detail))
    ensures e.Keys <= {"id", "at", "by", "action", "entity", "entity_id", "detail"}
  {
    var base := map["id" := Str(id), "at" := Str(at), "by" := OrElse(Get(session, "uid"), Null),
                    "action" := Str(action), "entity" := Str(entity)];
    Put(base, "entity_id", entityId)["detail" := Obj(detail)]
  }

  /** `audit(...)`: prepends one entry and touches nothing else. */
  function Audit(db: Db, session: Record, action: string, entity: string, entityId: Option<Json>,
                 detail: Record, stamp: Stamp): (db': Db)
    ensures |db'.audit| == |db.audit| + 1 && db'.audit[1..] == db.audit
    ensures db'.audit[0] == AuditEntry(session, action, entity, entityId, detail, stamp.auditId, stamp.auditAt)
    ensures "owner_id" !in db'.audit[0] && "team" !in db'.audit[0]
    ensures forall c :: Rows(db', c) == Rows(db, c)
  {
    db.(audit := [AuditEntry(session, action, entity, entityId, detail, stamp.auditId, stamp.auditAt)] + db.audit)
  }

  /** Audit entries carry neither `owner_id` nor `team`. */
  predicate AuditShaped(entries: seq<Record>)
  {
    forall i :: 0 <= i < |entries| ==> "owner_id" !in entries[i] && "team" !in entries[i]
  }
}

=== FILE: visibility.dfy ===
/** The visibility rule `canSee` and the list query `listFilter` shared by
    every list endpoint, the KPI endpoint and the CSV export. */
module Visibility {
  import opened Wrappers
  import opened Json
  import opened Seqs
  import opened Errors

  // ---------------------------------------------------------------------
  // Visibility
  // ---------------------------------------------------------------------

  /** The session carries the admin role. */
  predicate IsAdmin(u: Record)
  {
    Get(u, "role") == StrField("admin")
  }

  /** The record's `owner_id` is the session's user id (`===`). */
  predicate Owns(u: Record, row: Record)
  {
    StrictEq(Get(row, "owner_id"), Get(u, "uid"))
  }

  /** Both teams are set (truthy) and equal. */
  predicate ShareTeam(u: Record, row: Record)
  {
    Truthy(Get(row, "team")) && Truthy(Get(u, "team")) && StrictEq(Get(row, "team"), Get(u, "team"))
  }

  /** `canSee(user, row)`: an absent session sees nothing, an admin sees
      everything, anyone else sees what they own and what their team holds. */
  predicate CanSee(user: Option<Record>, row: Record)
  {
    if user.None? then false
    else if IsAdmin(user.value) then true
    else if Owns(user.value, row) then true
    else if ShareTeam(user.value, row) then true
    else false
  }

  /** Exactly three conditions grant visibility, and only to a present session. */
  lemma CanSeeExactly(user: Option<Record>, row: Record)
    ensures CanSee(user, row) <==>
      user.Some? && (IsAdmin(user.value) || Owns(user.value, row) || ShareTeam(user.value, row))
    ensures user.None? ==> !CanSee(user, row)
  {
  }

  /** Visibility reads only the session's `role`, `uid` and `team` and the
      record's `owner_id` and `team`: in particular `zone` never gates it. */
  lemma CanSeeReadsOnly(u1: Record, u2: Record, r1: Record, r2: Record)
    requires forall k :: k in {"role", "uid", "team"} ==> Get(u1, k) == Get(u2, k)
    requires forall k :: k in {"owner_id", "team"} ==> Get(r1, k) == Get(r2, k)
    ensures CanSee(Some(u1), r1) == CanSee(Some(u2), r2)
  {
    assert Get(u1, "role") == Get(u2, "role");
    assert Get(u1, "uid") == Get(u2, "uid");
    assert Get(u1, "team") == Get(u2, "team");
    assert Get(r1, "owner_id") == Get(r2, "owner_id");
    assert Get(r1, "team") == Get(r2, "team");
  }

  /** A staff session with a string team sees exactly the records it owns
      and the records of that team. */
  lemma StaffSees(u: Record, row: Record, uid: string, team: string)
    requires Get(u, "role") != StrField("admin")
    requires Get(u, "uid") == StrField(uid)
    requires Get(u, "team") == StrField(team) && team != ""
    ensures CanSee(Some(u), row) <==>
      Get(row, "owner_id") == StrField(uid) || Get(row, "team") == StrField(team)
  {
  }

  // ---------------------------------------------------------------------
  // Text search
  // ---------------------------------------------------------------------

  /** The character is an upper-case ASCII letter. */
  predicate IsUpper(c: char)
  {
    'A' <= c <= 'Z'
  }

  /** The string holds no upper-case ASCII letter. */
  predicate NoUpper(s: string)
  {
    forall i :: 0 <= i < |s| ==> !IsUpper(s[i])
  }

  const UPPER: string := "ABCDEFGHIJKLMNOPQRSTUVWXYZ"
  const LOWER: string := "abcdefghijklmnopqrstuvwxyz"

  /** `toLowerCase` on one character (ASCII letters): the result is never
      upper-case, an upper-case letter becomes the letter at the same place of
      the lower-case alphabet, and every other character is kept. */
  function LowerChar(c: char): (d: char)
    ensures !IsUpper(d)
    ensures forall k :: 0 <= k < 26 && UPPER[k] == c ==> d == LOWER[k]
    ensures !IsUpper(c) ==> d == c
  {
    if 'A' <= c <= 'Z' then (c as int + 32) as char else c
  }

  /** `toLowerCase` on a string (ASCII letters): the result has no upper-case
      letter, and a string that already has none is returned unchanged. */
  function Lower(s: string): (r: string)
    ensures |r| == |s|
    ensures forall i :: 0 <= i < |s| ==> r[i] == LowerChar(s[i])
    ensures NoUpper(r)
    ensures NoUpper(s) ==> r == s
  {
    seq(|s|, i requires 0 <= i < |s| => LowerChar(s[i]))
  }

  /** Lower-casing twice changes nothing more. */
  lemma LowerIdempotent(s: string)
    ensures Lower(Lower(s)) == Lower(s)
  {
  }

  /** `needle` occurs at the start of `hay`. */
  predicate StartsWith(hay: string, needle: string)
  {
    |needle| <= |hay| && hay[..|needle|] == needle
  }

  /** `hay.includes(needle)`. */
  predicate Contains(hay: string, needle: string)
    decreases |hay|
  {
    StartsWith(hay, needle) || (hay != [] && Contains(hay[1..], needle))
  }

  /** `needle` sits in `hay` at offset `i`. */
  predicate OccursAt(hay: string, needle: string, i: int)
  {
    0 <= i <= |hay| - |needle| && hay[i..i + |needle|] == needle
  }

  /** `Contains` finds `needle` exactly when it sits at some offset of `hay`. */
  lemma {:induction false} ContainsAt(hay: string, needle: string)
    ensures Contains(hay, needle) <==> exists i :: OccursAt(hay, needle, i)
    decreases |hay|
  {
    if StartsWith(hay, needle) {
      assert OccursAt(hay, needle, 0);
    } else if hay != [] {
      ContainsAt(hay[1..], needle);
      if Contains(hay[1..], needle) {
        var i :| OccursAt(hay[1..], needle, i);
        assert hay[i + 1..i + 1 + |needle|] == hay[1..][i..i + |needle|];
        assert OccursAt(hay, needle, i + 1);
      }
      if exists i :: OccursAt(hay, needle, i) {
        var i :| OccursAt(hay, needle, i);
        assert i != 0;
        assert hay[1..][i - 1..i - 1 + |needle|] == hay[i..i + |needle|];
        assert OccursAt(hay[1..], needle, i - 1);
      }
    }
  }

  // ---------------------------------------------------------------------
  // List query
  // ---------------------------------------------------------------------

  /** The query-string parameters a list endpoint reads; an absent parameter is "". */
  datatype Query = Query(q: string, stage: string, owner: string, team: string, month: string)

  /** `s.slice(0, n)`. */
  function Prefix(s: string, n: nat): (r: string)
    ensures |r| == if |s| <= n then |s| else n
    ensures r <= s
  {
    if |s| <= n then s else s[..n]
  }

  /** `(created_at || '').slice(0, 7)`: a truthy value that is not a string
      has no `slice` and the call throws. */
  function MonthKey(created: Option<Json>): (r: Result<string, Error>)
    ensures r.Err? <==> Truthy(created) && !created.value.Str?
    ensures !Truthy(created) ==> r == Ok("")
    ensures r.Ok? && Truthy(created) ==>
      r.value <= created.value.s && |r.value| == (if |created.value.s| <= 7 then |created.value.s| else 7)
  {
    if !Truthy(created) then Ok("")
    else if created.value.Str? then Ok(Prefix(created.value.s, 7))
    else Err(TypeError)
  }

  /** The free-text test: the record's serialised text contains the term, ignoring case. */
  predicate SearchHit(text: Record -> string, term: string, r: Record)
  {
    Contains(Lower(text(r)), Lower(term))
  }

  /** The record passes the text, stage, owner and team tests that are switched on. */
  predicate PassesFields(q: Query, text: Record -> string, r: Record)
  {
    && (q.q == "" || SearchHit(text, q.q, r))
    && (q.stage == "" || Get(r, "stage") == StrField(q.stage))
    && (q.owner == "" || Get(r, "owner_id") == StrField(q.owner))
    && (q.team == "" || OrElse(Get(r, "team"), Str("")) == Str(q.team))
  }

  /** The record passes the month test, if it is switched on. */
  predicate PassesMonth(q: Query, r: Record)
  {
    q.month == "" || MonthKey(Get(r, "created_at")) == Ok(q.month)
  }

  /** Reference definition: the record belongs in the listing. */
  predicate Listed(user: Option<Record>, query: Option<Query>, text: Record -> string, r: Record)
  {
    CanSee(user, r) && (query.None? || (PassesFields(query.value, text, r) && PassesMonth(query.value, r)))
  }

  /** The record reaches the month test, and that test throws on it. */
  predicate Throws(user: Option<Record>, q: Query, text: Record -> string, r: Record)
  {
    CanSee(user, r) && PassesFields(q, text, r) && q.month != "" && MonthKey(Get(r, "created_at")).Err?
  }

  /** Reading the month of this record throws. */
  predicate BadMonth(r: Record)
  {
    MonthKey(Get(r, "created_at")).Err?
  }

  /** The record's month is `month`. */
  predicate InMonth(month: string, r: Record)
  {
    MonthKey(Get(r, "created_at")) == Ok(month)
  }

  /** The month step: `out.filter(r => (r.created_at || '').slice(0,7) === month)`;
      the first record whose month cannot be read aborts the whole call. */
  function MonthFilter(rows: seq<Record>, month: string): (r: Result<seq<Record>, Error>)
  {
    if exists i :: 0 <= i < |rows| && BadMonth(rows[i]) then Err(TypeError)
    else Ok(Filter(rows, x => InMonth(month, x)))
  }

  /** The visibility step followed by the text, stage, owner and team steps
      of `listFilter`, each applied only when its parameter is set. */
  function FieldSteps(arr: seq<Record>, user: Option<Record>, q: Query, text: Record -> string): seq<Record>
  {
    var visible := Filter(arr, x => CanSee(user, x));
    var qq := Lower(q.q);
    var bySearch := FilterIf(visible, qq != "", x => Contains(Lower(text(x)), qq));
    var byStage := FilterIf(bySearch, q.stage != "", x => Get(x, "stage") == StrField(q.stage));
    var byOwner := FilterIf(byStage, q.owner != "", x => Get(x, "owner_id") == StrField(q.owner));
    FilterIf(byOwner, q.team != "", x => OrElse(Get(x, "team"), Str("")) == Str(q.team))
  }

  /** `listFilter(arr, user, q)`: the visible records, narrowed by each query
      parameter that is set, in the source's order of steps. */
  function ListFilter(arr: seq<Record>, user: Option<Record>, query: Option<Query>, text: Record -> string)
    : (r: Result<seq<Record>, Error>)
    ensures query.None? ==> r == Ok(Filter(arr, x => CanSee(user, x)))
    ensures query.Some? && query.value.month == "" ==> r.Ok?
    ensures r.Err? ==> r.error == TypeError
  {
    if query.None? then Ok(Filter(arr, x => CanSee(user, x)))
    else if query.value.month == "" then Ok(FieldSteps(arr, user, query.value, text))
    else MonthFilter(FieldSteps(arr, user, query.value, text), query.value.month)
  }

  predicate SearchStep(user: Option<Record>, q: Query, text: Record -> string, x: Record)
  {
    CanSee(user, x) && (q.q == "" || SearchHit(text, q.q, x))
  }

  predicate StageStep(user: Option<Record>, q: Query, text: Record -> string, x: Record)
  {
    SearchStep(user, q, text, x) && (q.stage == "" || Get(x, "stage") == StrField(q.stage))
  }

  predicate OwnerStep(user: Option<Record>, q: Query, text: Record -> string, x: Record)
  {
    StageStep(user, q, text, x) && (q.owner == "" || Get(x, "owner_id") == StrField(q.owner))
  }

  /** The four conditional steps are one filter by visibility and `PassesFields`. */
  lemma FieldStepsMeaning(arr: seq<Record>, user: Option<Record>, q: Query, text: Record -> string)
    ensures FieldSteps(arr, user, q, text) == Filter(arr, x => FieldsOk(user, q, text, x))
  {
    var qq := Lower(q.q);
    assert qq == "" <==> q.q == "";
    FilterIfStep(arr, x => CanSee(user, x), qq != "", x => Contains(Lower(text(x)), qq),
                 x => SearchStep(user, q, text, x));
    FilterIfStep(arr, x => SearchStep(user, q, text, x), q.stage != "",
                 x => Get(x, "stage") == StrField(q.stage), x => StageStep(user, q, text, x));
    FilterIfStep(arr, x => StageStep(user, q, text, x), q.owner != "",
                 x => Get(x, "owner_id") == StrField(q.owner), x => OwnerStep(user, q, text, x));
    FilterIfStep(arr, x => OwnerStep(user, q, text, x), q.team != "",
                 x => OrElse(Get(x, "team"), Str("")) == Str(q.team),
                 x => FieldsOk(user, q, text, x));
  }

  /** The month step over a filtered collection throws exactly when some
      record passing the earlier filter has a truthy non-string `created_at`. */
  lemma MonthFilterThrows(arr: seq<Record>, p: Record -> bool, month: string)
    ensures MonthFilter(Filter(arr, p), month).Err? <==> exists j :: 0 <= j < |arr| && p(arr[j]) && BadMonth(arr[j])
  {
    var s := Filter(arr, p);
    if exists i :: 0 <= i < |s| && BadMonth(s[i]) {
      var i :| 0 <= i < |s| && BadMonth(s[i]);
      var j :| 0 <= j < |arr| && arr[j] == s[i];
      assert p(arr[j]) && BadMonth(arr[j]);
    }
  }

  /** When the month step does not throw, it is one filter by both tests. */
  lemma MonthFilterKeeps(arr: seq<Record>, p: Record -> bool, month: string)
    ensures var r := MonthFilter(Filter(arr, p), month);
      r.Ok? ==> r.value == Filter(arr, x => p(x) && InMonth(month, x))
  {
    FilterIfStep(arr, p, true, x => InMonth(month, x), x => p(x) && InMonth(month, x));
  }

  /** The record passes visibility and every field test of the query. */
  predicate FieldsOk(user: Option<Record>, q: Query, text: Record -> string, x: Record)
  {
    CanSee(user, x) && PassesFields(q, text, x)
  }

  /** Reference definition of a listing: the records `Listed` keeps, in collection order. */
  function ListedRecords(arr: seq<Record>, user: Option<Record>, query: Option<Query>, text: Record -> string)
    : seq<Record>
  {
    Filter(arr, x => Listed(user, query, text, x))
  }

  /** `listFilter` throws, always a TypeError, exactly when a record reaching
      the month step has a truthy non-string `created_at`. */
  lemma ListFilterThrows(arr: seq<Record>, user: Option<Record>, query: Option<Query>, text: Record -> string)
    ensures var r := ListFilter(arr, user, query, text);
      && (r.Err? <==> query.Some? && exists i :: 0 <= i < |arr| && Throws(user, query.value, text, arr[i]))
      && (r.Err? ==> r.error == TypeError)
  {
    if query.Some? && query.value.month != "" {
      var q := query.value;
      var p := x => FieldsOk(user, q, text, x);
      FieldStepsMeaning(arr, user, q, text);
      assert FieldSteps(arr, user, q, text) == Filter(arr, p);
      MonthFilterThrows(arr, p, q.month);
      if ListFilter(arr, user, query, text).Err? {
        var j :| 0 <= j < |arr| && p(arr[j]) && BadMonth(arr[j]);
        assert Throws(user, q, text, arr[j]);
      } else {
        forall i | 0 <= i < |arr|
          ensures !Throws(user, q, text, arr[i])
        {
          if Throws(user, q, text, arr[i]) {
            assert p(arr[i]) && BadMonth(arr[i]);
          }
        }
      }
    }
  }

  /** When `listFilter` succeeds, its pipeline of filters equals one filter
      by the reference predicate `Listed`. */
  lemma ListFilterMeaning(arr: seq<Record>, user: Option<Record>, query: Option<Query>, text: Record -> string)
    ensures var r := ListFilter(arr, user, query, text);
      r.Ok? ==> r.value == ListedRecords(arr, user, query, text)
  {
    var listed := x => Listed(user, query, text, x);
    if query.None? {
      FilterExt(arr, x => CanSee(user, x), listed);
    } else {
      var q := query.value;
      var p := x => FieldsOk(user, q, text, x);
      FieldStepsMeaning(arr, user, q, text);
      assert FieldSteps(arr, user, q, text) == Filter(arr, p);
      if q.month == "" {
        FilterExt(arr, p, listed);
      } else {
        MonthFilterKeeps(arr, p, q.month);
        FilterExt(arr, x => p(x) && InMonth(q.month, x), listed);
      }
    }
  }

  /** A listed record is visible and matches every parameter that is set;
      with a month set, its `created_at` is a string starting with that month. */
  lemma ListedMatches(user: Option<Record>, query: Option<Query>, text: Record -> string, x: Record)
    requires Listed(user, query, text, x)
    ensures CanSee(user, x)
    ensures query.Some? ==> var q := query.value; var c := Get(x, "created_at");
      && (q.stage != "" ==> Get(x, "stage") == StrField(q.stage))
      && (q.owner != "" ==> Get(x, "owner_id") == StrField(q.owner))
      && (q.team != "" ==> Get(x, "team") == StrField(q.team))
      && (q.month != "" ==> c.Some? && c.value.Str? && Prefix(c.value.s, 7) == q.month)
  {
  }

  /** What a successful listing promises: an order-preserving subsequence of
      the collection, holding every record that is listed and nothing else. */
  lemma ListFilterSound(arr: seq<Record>, user: Option<Record>, query: Option<Query>, text: Record -> string)
    ensures var r := ListFilter(arr, user, query, text);
      r.Ok? ==>
        && IsSubseq(r.value, arr)
        && (forall i :: 0 <= i < |arr| && Listed(user, query, text, arr[i]) ==> arr[i] in r.value)
        && (forall i :: 0 <= i < |r.value| ==> r.value[i] in arr && Listed(user, query, text, r.value[i]))
  {
    ListFilterMeaning(arr, user, query, text);
    FilterIsSubseq(arr, x => Listed(user, query, text, x));
  }

  /** A listing without a query object, or with every parameter empty, is
      exactly the visible records. */
  lemma EmptyQueryIsVisibility(arr: seq<Record>, user: Option<Record>, text: Record -> string)
    ensures ListFilter(arr, user, None, text) == Ok(Filter(arr, x => CanSee(user, x)))
    ensures ListFilter(arr, user, Some(Query("", "", "", "", "")), text) == Ok(Filter(arr, x => CanSee(user, x)))
  {
  }

  /** The search term is compared without regard to case. */
  lemma SearchIgnoresCase(arr: seq<Record>, user: Option<Record>, q: Query, term: string, text: Record -> string)
    requires Lower(term) == Lower(q.q)
    ensures ListFilter(arr, user, Some(q.(q := term)), text) == ListFilter(arr, user, Some(q), text)
  {
    var q' := q.(q := term);
    assert FieldSteps(arr, user, q', text) == FieldSteps(arr, user, q, text);
  }

  /** Without a month parameter the listing never throws. */
  lemma NoMonthNoThrow(arr: seq<Record>, user: Option<Record>, q: Query, text: Record -> string)
    requires q.month == ""
    ensures ListFilter(arr, user, Some(q), text).Ok?
  {
  }

  /** `list.filter(a => a.deal_id === dealId)` when `dealId` is set: keeps, in
      order, exactly the activities of that deal; an empty `dealId` keeps all. */
  function ByDeal(list: seq<Record>, dealId: string): (r: seq<Record>)
    ensures IsSubseq(r, list)
    ensures forall i :: 0 <= i < |r| ==> r[i] in list && (dealId != "" ==> Get(r[i], "deal_id") == StrField(dealId))
    ensures forall i :: 0 <= i < |list| && (dealId == "" || Get(list[i], "deal_id") == StrField(dealId)) ==>
      list[i] in r
    ensures dealId == "" ==> r == list
    ensures forall x :: multiset(r)[x] ==
                        (if dealId == "" || Get(x, "deal_id") == StrField(dealId) then multiset(list)[x] else 0)
  {
    var p := x => Get(x, "deal_id") == StrField(dealId);
    if dealId == "" then
      IsSubseqRefl(list);
      list
    else
      FilterIsSubseq(list, p);
      FilterMultiset(list, p);
      Filter(list, p)
  }

  /** The activity listing: `listFilter`, then the optional `deal_id` parameter,
      which keeps, in order, exactly the listed activities of that deal. */
  function ListActivities(arr: seq<Record>, user: Option<Record>, query: Option<Query>, dealId: string,
                          text: Record -> string): (r: Result<seq<Record>, Error>)
    ensures ListFilter(arr, user, query, text).Err? <==> r.Err?
    ensures r.Ok? ==> var list := ListFilter(arr, user, query, text).value;
      && IsSubseq(r.value, list)
      && (forall i :: 0 <= i < |r.value| ==>
            r.value[i] in list && (dealId != "" ==> Get(r.value[i], "deal_id") == StrField(dealId)))
      && (forall i :: 0 <= i < |list| && (dealId == "" || Get(list[i], "deal_id") == StrField(dealId)) ==>
            list[i] in r.value)
    ensures r.Ok? ==> var list := ListFilter(arr, user, query, text).value;
      forall x :: multiset(r.value)[x] ==
                  (if dealId == "" || Get(x, "deal_id") == StrField(dealId) then multiset(list)[x] else 0)
    ensures r.Ok? && dealId == "" ==> r == ListFilter(arr, user, query, text)
  {
    var list :- ListFilter(arr, user, query, text);
    Ok(ByDeal(list, dealId))
  }
}

=== FILE: wrappers.dfy ===
/** Failure-compatible wrappers used throughout the model. */
module Wrappers {

  /** A value that may be missing; for a JSON field, `None` is JavaScript's `undefined`. */
  datatype Option<+T> = None | Some(value: T)

  /** The outcome of a request handler or of a computation that may throw. */
  datatype Result<+T, +E> = Ok(value: T) | Err(error: E) {

    predicate IsFailure() {
      Err?
    }

    function PropagateFailure<U>(): Result<U, E>
      requires Err?
    {
      Err(error)
    }

    function Extract(): T
      requires Ok?
    {
      value
    }
  }
}
